=== FILE: README.md ===
# np-fetch `fetch.js`, modelled in Dafny

This project models the decision logic of np-fetch's `fetch.js`, which fetches one npm package
archive. The steps are:

1. Split a package specifier `name[@range]`.
2. Request `<registry>/<name>` and parse the metadata document.
3. Pick a version record (`pickPackage`). A dist-tag wins, then range validity is checked, then the
   highest satisfying version is chosen.
4. Stream `dist.tarball` into a scratch file named by `tmp`.
5. Hash the scratch file with sha1 and compare the digest with `dist.shasum`.
6. Copy the scratch file to `join(destDir, last '/'-segment of the tarball URI)`, but only on a match.
7. Unlink the scratch name whenever the `Promise.using` block settles.

Every I/O step is an input outcome, held in the `World` datatype (`pipeline.dfy`). The pure foreign
functions are parameters, held in `Foreign`: `JSON.parse`, sha1, Node's `path.join`, and semver
validity, satisfaction and precedence. A run returns three things: the promise's outcome (`Done`,
`Failed(error)`, or `Stalled` when a stream never reports an end), the file system afterwards as a
map from path to bytes, and the I/O steps taken, in order.

Files:
- `wrappers.dfy`: `Option`, `Result`.
- `strings.dfy`: JavaScript `split`/`join` on one separator character, with round-trip lemmas.
- `package_spec.dfy`: the specifier split.
- `locations.dfy`: the metadata URI and the destination path.
- `registry.dfy`: the document, `maxSatisfying` and `pickPackage`.
- `streams.dfy`: `writeStreamToFile` as a sequence of stream events. The first event that is not data
  settles the promise.
- `errors.dfy`: the error kinds and the messages the code builds.
- `pipeline.dfy`: `fetch`, `Promise.using` and the scratch disposer.
- `pipeline_properties.dfy`: the end-to-end properties.

Behaviour of the code worth knowing:
- The fetch promise resolves with `undefined`, not with the destination path. `Done` carries no value.
- "No version satisfies the range" is not an error of its own. `pickPackage` returns `undefined`, and
  reading `pkg.dist` then throws a `TypeError` (`FetchNoMatchingVersion`).
- The copy writes straight to the destination and is not atomic. A failed copy can leave a partial
  file there (`FetchCopyIsNotAtomic`). A destination that cannot be opened is left untouched
  (`FetchDestinationKept`).
- The checksum error names the tarball URI and the scratch path. It does not name the two digests.
- Transport, stream, hashing and file errors are not wrapped. They pass through unchanged (`IoError`).
  Only the abort gets an error of its own, which names the target file.

## Model

| member | source | states |
|---|---|---|
| Strings.Split | fetch.js:19 | `split` always yields at least one part; no part contains the separator; there is exactly one part iff the separator does not occur |
| Strings.JoinTwo | fetch.js:44 | `Join`, the model of `Array.prototype.join`, puts exactly one separator between two strings |
| Strings.JoinSplit | fetch.js:19 | joining the parts of a split with the separator gives back the string |
| Strings.SplitJoin | fetch.js:30 | splitting undoes joining when no part contains the separator |
| Strings.SplitAround | fetch.js:30 | `split` of `a + sep + b` is the split of `a` followed by the split of `b` |
| Strings.SplitFirstPart | fetch.js:19 | the first part is the text before the first separator |
| Strings.SplitLastPart | fetch.js:30 | `LastPart`, the model of `split(sep).pop()`, is the text after the last separator, or the whole string when there is none |
| Strings.SplitAfterFirst | fetch.js:19 | the parts after the first are the split of the text after the first separator |
| PackageSpec.Parse | fetch.js:19 | the name is the text before the first '@'; the range is the text between the first and second '@', or "latest" when there is no '@' or that text is empty |
| PackageSpec.ParseFormat | fetch.js:19 | parsing `name@range` gives back name and range when neither holds '@' and the range is non-empty |
| PackageSpec.ParseIgnoresTail | fetch.js:19 | text after a second '@' is ignored |
| PackageSpec.ParseEmptyRange | fetch.js:19 | `name@` and `name@@…` fall back to "latest" |
| PackageSpec.ScopedSpecHasEmptyName | fetch.js:19 | a scoped specifier `@scope/pkg@r` parses to the empty name and the range `scope/pkg` |
| Locations.MetadataUri | fetch.js:44 | `[registry, name].join('/')` is exactly `registry + "/" + name` |
| Locations.MetadataUriLastSegment | fetch.js:44 | a name without '/' is the last segment of its metadata URI |
| Locations.MetadataUriKeepsTrailingSlash | fetch.js:44 | a registry ending in '/' yields "//" in the URI; nothing is normalised |
| Locations.TarballFileName | fetch.js:30 | the file name has no '/', is a suffix of the tarball URI, and follows its last '/' |
| Locations.DestinationPath | fetch.js:30 | a tarball URI without '/' is itself the file name joined to `destDir` |
| Locations.DestinationPathFileName | fetch.js:30 | the destination is `join(destDir, s)` for the suffix `s` of the tarball URI that follows its last '/' (or is the whole URI) and holds no '/' |
| Locations.DestinationOfRegistryTarball | fetch.js:30 | the destination of `…/<file>` is `join(destDir, file)`, whatever precedes it |
| Locations.DestinationCollision | fetch.js:30 | two tarball URIs with the same file name get the same destination |
| Registry.MaxSatisfying | fetch.js:66 | no result iff no key satisfies the range; a result is a satisfying key (for any semver release) |
| Registry.MaxSatisfyingIsGreatest | fetch.js:66 | under a total preorder the result ranks at least as high as every satisfying key |
| Registry.MaxSatisfyingKeepsEarliest | fetch.js:66 | among equally ranked satisfying keys, the earliest in key order is kept, as semver's loop from release 5.4 on does |
| Registry.MaxSatisfyingIsUnique | fetch.js:66 | under a total order the result is exactly the reference maximum `IsMaxSatisfying` |
| Registry.Tags | fetch.js:57 | the dist-tags object of the document, or the empty object when it has none |
| Registry.LookupVersion | fetch.js:68 | a missing `versions` object is a `TypeError`; otherwise the record is present iff the key is |
| Registry.Pick | fetch.js:56-69 | "Invalid version range" iff the range is neither a tag nor valid; failure iff that, or `versions` is missing; a returned record belongs to `versions` |
| Registry.PickTagPrecedence | fetch.js:57-61 | a dist-tag is looked up directly: the semver operations are never consulted, and the result is the record stored under the tagged version |
| Registry.PickInvalidRangeSkipsLookup | fetch.js:62-63 | an invalid non-tag range fails the same way whatever `versions` holds |
| Registry.PickHighest | fetch.js:65-68 | for a valid non-tag range the record is that of a highest satisfying key; there is no record, and no error, iff no key satisfies |
| Registry.PickAsWritten | fetch.js:56-69 | `pickPackage` as written fails exactly as the corrected one does: for a missing `versions` object, or for an invalid range that is not a tag |
| Registry.PickAsWrittenNullKey | fetch.js:66-68 | as written, with no satisfying key, `versions[null]` returns the record stored under "null" |
| Registry.PickAsWrittenAgrees | fetch.js:56-69 | the code as written and the corrected `Pick` agree whenever `versions` has no "null" key |
| Streams.Handle | fetch.js:72-79 | each handler settles the promise; only 'finish' resolves; 'aborted' gives the abort error naming the target file; a source error or a file-stream error, a failed open included, rejects with `IoError` of its own cause |
| Streams.WriteStreamToFile | fetch.js:70-81 | the first non-data event settles the promise through its handler; with no such event the promise stays pending |
| Streams.Written | fetch.js:77 | the file holds exactly the data chunks that arrived before the settling event |
| Streams.OpenedExactly | fetch.js:77-78 | `Opened`, whether `fs.createWriteStream` opened its file, is false exactly when an open error arrives before any 'finish' or write error; an earlier source error or abort settles the promise but does not open the file |
| Streams.SettledOpened | fetch.js:77-79 | a write that settled on 'finish' or on a write error had opened its file |
| Streams.ResolvedOpened | fetch.js:77-79 | a write that reached 'finish' had opened its file |
| Streams.NotOpenedRejects | fetch.js:72-79 | a file that could not be opened means a rejected write |
| Streams.SinkErrorSettles | fetch.js:77-78 | a write error rejects with its cause, after the file opened and received every chunk before the error |
| Streams.Store | fetch.js:77 | `createWriteStream` creates or truncates the file only when it opens: an opened file holds the written bytes, a failed open leaves every file as it was, and no other path changes |
| Streams.SettledOutcomes | fetch.js:70-81 | a settled write has three disjoint outcomes: success, a passed-on error, or the abort error naming the target file |
| Streams.FirstSettling | fetch.js:70-81 | any non-data event means some event settles the promise |
| Errors.Message | fetch.js:28-75 | the messages the code builds name the URI, the range, the target file, or the tarball and the scratch path |
| Pipeline.LinearAppend | fetch.js:18-34 | stage-ordered traces concatenate into a stage-ordered trace |
| Pipeline.ResolveDist | fetch.js:20-23 | a `dist` is returned iff the metadata arrived, parsed, and `pickPackage` gave a record with `dist`; request and JSON errors come first; a failed pick passes its error on, and a missing record or a record without `dist` gives the `TypeError` of reading `pkg.dist` |
| Pipeline.Release | fetch.js:87-90 | the disposer keeps the outcome, appends the unlink, and touches only the scratch path |
| Pipeline.ToOutcome | fetch.js:23 | a resolved block is `Done`; a pending one is `Stalled`; a rejected one fails with the rejection's error |
| Pipeline.Verify | fetch.js:25-31 | the copy step happens iff the digest was computed and equals `dist.shasum`; then the destination is written as the copy's file stream allows (`Store`); otherwise the file system is untouched; a hashing error is passed on unchanged, and a mismatch gives the checksum error naming the tarball and the scratch path |
| Pipeline.ScratchBody | fetch.js:24-31 | each copy follows a matching hash, and a match always leads to a copy; the scratch file exists only if its stream opened; the destination is written only after a match; the outcome of each exit: the download's rejection, a hashing error passed on, the checksum error, or the copy's outcome |
| Pipeline.Scoped | fetch.js:23 | the block once a scratch name is held starts with the reservation of that name |
| Pipeline.Using | fetch.js:23 | `Promise.using` starts with the request for `dist.tarball` |
| Pipeline.PickedDist | fetch.js:19-22 | unparsable metadata fails with the error naming `registry + "/" + name`; a resolved `dist` is the `dist` of the record `Pick` returns for the parsed range and document |
| Pipeline.Fetch | fetch.js:18-34 | the first step is the request to `registry + "/" + name`; a resolution failure ends the run after that request, with the file system untouched |
| Pipeline.VerifyLinear | fetch.js:25-30 | hashing comes before copying |
| Pipeline.ScratchBodyLinear | fetch.js:24-31 | the download comes before the hash and the copy, in stage order |
| Pipeline.ScopedLinear | fetch.js:23-31 | the steps of the block follow the pipeline order: reservation, download, hash, copy, unlink, none repeated |
| Pipeline.UsingLinear | fetch.js:23 | the tarball request comes before everything that uses the scratch name |
| Pipeline.FetchLinear | fetch.js:18-34 | no step of a fetch is repeated and the steps follow the pipeline order |
| PipelineProperties.ScopedGate | fetch.js:25-30 | inside the block a copy happens iff the digest matched, and a hash step with the matching digest is among the steps (`ScopedLinear` puts it before the copy) |
| PipelineProperties.ScopedRelease | fetch.js:87-90 | inside the block the scratch name is unlinked last on every exit, and never while stalled |
| PipelineProperties.ScopedOutcome | fetch.js:23-31 | how the block ends, decided by the first step that fails |
| PipelineProperties.ScopedFileSystem | fetch.js:23-31 | only the scratch file changes without a match; with a match the destination holds the copy's bytes if its stream opened and is untouched if it did not; a scratch file that could not be opened is never created; a successful unlink removes the scratch file |
| PipelineProperties.UsingStages | fetch.js:23 | `Promise.using` fails on a missing scratch name after the tarball request, with the first failure in argument order (the tarball request's error, else the scratch name's), or runs the scoped block after it |
| PipelineProperties.FetchThroughUsing | fetch.js:20-23 | a resolved fetch is the metadata request followed by `Promise.using` |
| PipelineProperties.FetchStages | fetch.js:18-34 | a fetch is the metadata request, then the tarball request, then the scoped block, or it stops early |
| PipelineProperties.FetchChecksumGate | fetch.js:25-30 | the archive is copied iff its digest equals `dist.shasum`, only from scratch to destination, and a hash step with the matching digest is among the steps (`FetchLinear` puts it before the copy) |
| PipelineProperties.FetchReleasesScratch | fetch.js:87-90 | the scratch name is reserved only for a resolved fetch; on every exit the last step unlinks it; nothing else is unlinked |
| PipelineProperties.FetchFileSystem | fetch.js:23-31 | without a match nothing but the scratch file changes; with a match the destination holds the copy's bytes if its stream opened and is untouched otherwise; a scratch file that could not be opened is never created; a successful unlink removes the scratch file |
| PipelineProperties.FetchSettlesAsCopy | fetch.js:24-30 | after a digest match the fetch settles as the copy to the destination does |
| PipelineProperties.FetchSucceeds | fetch.js:18-34 | a fetch resolves iff the digest matched and the copy finished |
| PipelineProperties.FetchChecksumMismatch | fetch.js:27-29 | a mismatch rejects with the error naming the tarball and the scratch path; nothing is copied; only the scratch file changes |
| PipelineProperties.FetchAbortedDownload | fetch.js:74-76 | an aborted download rejects with the error naming the scratch file, and nothing is copied |
| PipelineProperties.FetchDownloadError | fetch.js:72-79 | an error from the tarball response or from the scratch file's stream (a failed open included) that settles the download ends the fetch with that error unchanged; nothing is copied and only the scratch path changes |
| PipelineProperties.FetchTarballRequestFails | fetch.js:36-41 | a failed tarball request rejects with its own error and touches only the scratch path |
| PipelineProperties.FetchRoundTrip | fetch.js:24-30 | when the digest matched and the copy, reading back the scratch file, finished, the fetch resolves, the destination holds the bytes received before 'finish', and they hash to `dist.shasum` |
| PipelineProperties.FetchDestinationNotOpened | fetch.js:77-78 | after a match, a destination that cannot be opened rejects the fetch as the copy does: with the open error when that settles the copy |
| PipelineProperties.FetchDestinationKept | fetch.js:77-78 | after a match, a destination that cannot be opened is left as it was; only the scratch file may change |
| PipelineProperties.FetchCopyIsNotAtomic | fetch.js:83-85 | a copy that settles on a write error rejects with it and leaves at the destination every chunk written before the error |
| PipelineProperties.ScopedUnlinkErrorSwallowed | fetch.js:88-90 | inside the block, whether the unlink succeeds changes neither the outcome nor the steps |
| PipelineProperties.FetchUnlinkErrorSwallowed | fetch.js:88-90 | whether the unlink succeeds changes neither the outcome nor the steps |
| PipelineProperties.FetchStallsOnSilentStream | fetch.js:70-81 | a download that never reports an end never settles, and its scratch name is never unlinked |
| PipelineProperties.FetchNoMatchingVersion | fetch.js:20-23 | with the corrected `Pick`, no satisfying version means a `TypeError` right after the metadata request |
| PipelineProperties.FetchInvalidRange | fetch.js:62-63 | an invalid non-tag range rejects naming the range, before any download |

## Findings

| source | as written | input that shows it | evidently intended | confidence | as-written member | corrected member |
|---|---|---|---|---|---|---|
| fetch.js:66-68 | when no key satisfies the range, `maxSatisfying` returns `null`, and `packageDoc.versions[null]` reads the property named "null" | `versions = {"null": rec}`, a valid range that no key satisfies | no record, as for any other unsatisfied range | low; not executed; needs a "null" version key | Registry.PickAsWritten, Registry.PickAsWrittenNullKey | Registry.Pick, Registry.PickHighest |

The pipeline uses the corrected `Pick`. `Registry.PickAsWrittenAgrees` shows that the two differ
only on documents with a "null" version key.

## Left out

- HTTP: `getStream`, the `concat` of the metadata body, and `http.get` (fetch.js:36-41, 93-97) are
  input outcomes. The HTTP status code is never checked by the code, so an error page is parsed or
  hashed like any other body.
- A metadata stream that never ends is not modelled. The metadata body is either present or an error.
- `JSON.parse`, sha1 (`hash_file`), `path.join` and semver's `validRange`, `satisfies` and
  version comparison are opaque functions. Their internals are not modelled. A malformed JSON
  value of the wrong type (a non-string tag, a non-object `dist`) is not modelled either.
- `maxSatisfying` is modelled as the loop of semver 5.4 and later: it keeps the first satisfying
  key and replaces it only with a strictly higher one. The semver release is not pinned.
- Registry.MaxSatisfyingKeepsEarliest: holds for that loop only. Older semver releases filter,
  sort with `rcompare` and take the first element, so the choice among equally ranked versions
  (such as `1.0.0+a` and `1.0.0+b`) depends on whether `Array.prototype.sort` is stable.
- Pipeline.ResolveDist: uses the corrected `Pick`. With a "null" version key and a valid range that
  no key satisfies, the code as written downloads `versions["null"]`, while the model fails with a
  `TypeError` (see Findings).
- PipelineProperties.FetchNoMatchingVersion: states the corrected behaviour. For a document with a
  "null" version key, the code as written downloads that record instead.
- `Dist` assumes `tarball` and `shasum` are both strings. A missing `shasum` always fails the
  comparison at fetch.js:27, since `undefined` never equals a digest. A missing `tarball` is not
  modelled.
- Streams.OpenedExactly: an open error that follows a 'finish' or a write error is read as a file
  that opened. A file stream reports neither before it has opened, so that order does not arise.
- Object property lookup is modelled on own keys only. Names inherited from `Object.prototype`
  (`constructor`, `__proto__`, …) are not modelled.
- `tmp.tmpName` only yields a name. It is an input outcome that may fail.
- When `tmpName` fails, the tarball response stream is never consumed. That leak is not modelled.
- The data that reaches the scratch file after the promise settled (on an error or an abort) is not
  modelled. The file keeps what arrived before settling.
- The copy's read stream is an input event sequence. `FetchRoundTrip` assumes it delivered the
  scratch file's bytes.
- `cmd.js`: argument and environment handling, console output, exit codes and the concurrent
  `Promise.map` over several specifiers. Each fetch is modelled alone, so destination collisions
  between concurrent fetches are outside the model (`DestinationCollision` only shows that they can
  happen).
- `console.log` in `getStream`.

=== FILE: errors.dfy ===
/** The errors a fetch can end with, and the messages of the ones the fetcher
    builds itself. */
module Errors {
  import opened Wrappers
  import opened Strings

  datatype FetchError =
      /** An error raised by the HTTP client, a stream, the temporary-name
          generator, the file system or the hasher, passed on unchanged. */
    | IoError(cause: string)
      /** The metadata body is not JSON (fetch.js:49). */
    | InvalidJson(uri: string)
      /** The range is neither a dist-tag nor a valid range (fetch.js:63). */
    | InvalidRange(range: string)
      /** A property read on `undefined`: no `versions` object, no record for
          the chosen version, or a record without `dist`. */
    | TypeError
      /** The download's source stream was aborted (fetch.js:75). */
    | SourceAborted(filename: string)
      /** The archive's digest differs from `dist.shasum` (fetch.js:28). */
    | ChecksumInvalid(tarball: string, scratch: string)

  /** The error's message; `None` for a `TypeError`, whose message the
      JavaScript engine writes. */
  function Message(e: FetchError): (m: Option<string>)
    ensures m.None? <==> e.TypeError?
    ensures e.IoError? ==> m == Some(e.cause)
    ensures e.InvalidJson? ==> Contains(m.value, e.uri)
    ensures e.InvalidRange? ==> Contains(m.value, e.range)
    ensures e.SourceAborted? ==> Contains(m.value, e.filename)
    ensures e.ChecksumInvalid? ==> Contains(m.value, e.tarball) && Contains(m.value, e.scratch)
  {
    match e
    case IoError(cause) => Some(cause)
    case InvalidJson(uri) =>
      OccursBetween("Invalid JSON from ", uri, "");
      assert "Invalid JSON from " + uri + "" == "Invalid JSON from " + uri;
      Some("Invalid JSON from " + uri)
    case InvalidRange(range) =>
      OccursBetween("Invalid version range \"", range, "\"");
      Some("Invalid version range \"" + range + "\"")
    case TypeError => None
    case SourceAborted(filename) =>
      OccursBetween("Writing ", filename, " failed, source aborted.");
      Some("Writing " + filename + " failed, source aborted.")
    case ChecksumInvalid(tarball, scratch) =>
      var head := "Checksum for ";
      var middle := " was invalid (";
      OccursBetween(head, tarball, middle + scratch + ")");
      OccursBetween(head + tarball + middle, scratch, ")");
      assert head + tarball + middle + scratch + ")" == head + tarball + (middle + scratch + ")");
      Some(head + tarball + middle + scratch + ")")
  }

  /** `t` occurs in `a + t + b`. */
  lemma OccursBetween(a: string, t: string, b: string)
    ensures Contains(a + t + b, t)
  {
    assert (a + t + b)[|a|..|a| + |t|] == t;
    assert OccursAt(a + t + b, t, |a|);
  }
}

=== FILE: locations.dfy ===
/** The two locations the fetcher computes from strings: the registry URI of a
    package's metadata document (fetch.js line 44) and the destination path of
    a downloaded archive (fetch.js line 30). */
module Locations {
  import opened Strings

  /** `[registry, name].join('/')`. */
  function MetadataUri(registry: string, name: string): (uri: string)
    ensures uri == registry + "/" + name
  {
    JoinTwo(registry, name, '/');
    assert "/" == ['/'];
    Join([registry, name], '/')
  }

  /** The name can be read back from the metadata URI when it holds no '/'. */
  lemma MetadataUriLastSegment(registry: string, name: string)
    requires '/' !in name
    ensures LastPart(MetadataUri(registry, name), '/') == name
  {
    LastPartAfterSep(registry, name, '/');
  }

  /** No normalisation: a registry ending in '/' gives a doubled '//'. */
  lemma MetadataUriKeepsTrailingSlash(registry: string, name: string)
    requires |registry| > 0 && registry[|registry| - 1] == '/'
    ensures OccursAt(MetadataUri(registry, name), "//", |registry| - 1)
  {
    var uri := MetadataUri(registry, name);
    assert uri[|registry| - 1] == '/' && uri[|registry|] == '/';
    assert uri[|registry| - 1..|registry| + 1] == "//";
  }

  /** `tarball.split('/').pop()`: the archive's file name. */
  function TarballFileName(tarball: string): (file: string)
    ensures '/' !in file
    ensures |file| <= |tarball| && tarball[|tarball| - |file|..] == file
    ensures |file| < |tarball| ==> tarball[|tarball| - |file| - 1] == '/'
    ensures '/' !in tarball ==> file == tarball
  {
    SplitLastPart(tarball, '/');
    LastPart(tarball, '/')
  }

  /** `path.join(destDir, file)`, where `join` is Node's path joining, which is
      not part of this model. The destination depends on the tarball URI only
      through its file name. */
  function DestinationPath(join: (string, string) -> string, destDir: string, tarball: string): (p: string)
    ensures '/' !in tarball ==> p == join(destDir, tarball)
  {
    join(destDir, TarballFileName(tarball))
  }

  /** The destination joins `destDir` with the part of the tarball URI after
      its last '/': a suffix that starts the URI or follows a '/' and holds no
      '/' itself. */
  lemma DestinationPathFileName(join: (string, string) -> string, destDir: string, tarball: string)
    ensures exists i :: (0 <= i <= |tarball| && (i == 0 || tarball[i - 1] == '/') &&
                         '/' !in tarball[i..] && DestinationPath(join, destDir, tarball) == join(destDir, tarball[i..]))
  {
    var file := TarballFileName(tarball);
    assert tarball[|tarball| - |file|..] == file;
  }

  /** For a registry-style tarball URI `…/<pkg>/-/<file>` the destination is the
      file name in the destination directory, whatever the package or host. */
  lemma DestinationOfRegistryTarball(join: (string, string) -> string, destDir: string, base: string, file: string)
    requires '/' !in file
    ensures DestinationPath(join, destDir, base + "/" + file) == join(destDir, file)
  {
    LastPartAfterSep(base, file, '/');
  }

  /** Two different tarballs sharing a file name land on the same path. */
  lemma DestinationCollision(join: (string, string) -> string, destDir: string, base1: string, base2: string, file: string)
    requires '/' !in file
    ensures DestinationPath(join, destDir, base1 + "/" + file) == DestinationPath(join, destDir, base2 + "/" + file)
  {
    DestinationOfRegistryTarball(join, destDir, base1, file);
    DestinationOfRegistryTarball(join, destDir, base2, file);
  }
}

=== FILE: package_spec.dfy ===
/** Splitting a package specifier `name[@range]` into a name and a version
    range (fetch.js line 19). */
module PackageSpec {
  import opened Strings

  /** The range used when the specifier gives none: the `latest` dist-tag. */
  const DefaultRange: string := "latest"

  datatype Spec = Spec(name: string, range: string)

  /** `packageSpec.split('@')`, then the first part is the name and the second
      part, unless it is missing or empty, is the range. */
  function Parse(spec: string): (r: Spec)
    // the name is the text before the first '@' (the whole specifier if none)
    ensures '@' !in r.name
    ensures |r.name| <= |spec| && spec[..|r.name|] == r.name
    ensures |r.name| < |spec| ==> spec[|r.name|] == '@'
    // without an '@' the range is the default tag
    ensures '@' !in spec ==> r == Spec(spec, DefaultRange)
    // the range is never empty: a non-empty text between the first '@' and
    // the next '@' (or the end) is the range, a missing or empty one gives
    // the default tag
    ensures r.range != ""
    ensures (|r.name| + 1 < |spec| && spec[|r.name| + 1] != '@') ==>
      '@' !in r.range && OccursAt(spec, r.range, |r.name| + 1) &&
      (|r.name| + 1 + |r.range| == |spec| || spec[|r.name| + 1 + |r.range|] == '@')
    ensures (|r.name| + 1 >= |spec| || spec[|r.name| + 1] == '@') ==> r.range == DefaultRange
    ensures r.range != DefaultRange ==>
      '@' !in r.range && |r.name| < |spec| && OccursAt(spec, r.range, |r.name| + 1) &&
      (|r.name| + 1 + |r.range| == |spec| || spec[|r.name| + 1 + |r.range|] == '@')
  {
    var parts := Split(spec, '@');
    SplitFirstPart(spec, '@');
    if |parts| >= 2 then
      SplitAfterFirst(spec, '@');
      SplitFirstPart(spec[|parts[0]| + 1..], '@');
      var second := parts[1];
      Spec(parts[0], if second == "" then DefaultRange else second)
    else
      SplitNoSep(spec, '@');
      Spec(parts[0], DefaultRange)
  }

  /** The specifier `name@range`. */
  function Format(s: Spec): string
  {
    s.name + "@" + s.range
  }

  /** Parsing a formatted specifier gives back its name and range, provided
      neither contains '@' and the range is not empty. */
  lemma ParseFormat(s: Spec)
    requires '@' !in s.name && '@' !in s.range && s.range != ""
    ensures Parse(Format(s)) == s
  {
    SplitAround(s.name, s.range, '@');
    SplitNoSep(s.name, '@');
    SplitNoSep(s.range, '@');
  }

  /** Text after a second '@' is ignored. */
  lemma ParseIgnoresTail(name: string, range: string, tail: string)
    requires '@' !in name && '@' !in range
    ensures Parse(name + "@" + range + "@" + tail) == Parse(name + "@" + range)
  {
    assert name + "@" + range + "@" + tail == name + ['@'] + (range + ['@'] + tail);
    SplitAround(name, range + ['@'] + tail, '@');
    SplitAround(range, tail, '@');
    SplitAround(name, range, '@');
    SplitNoSep(name, '@');
    SplitNoSep(range, '@');
  }

  /** An empty range segment (`name@` or `name@@…`) falls back to the default tag. */
  lemma ParseEmptyRange(name: string, tail: string)
    requires '@' !in name
    ensures Parse(name + "@") == Spec(name, DefaultRange)
    ensures Parse(name + "@@" + tail) == Spec(name, DefaultRange)
  {
    SplitNoSep(name, '@');
    SplitAround(name, "", '@');
    assert name + "@" == name + ['@'] + "";
    assert name + "@@" + tail == name + ['@'] + ("" + ['@'] + tail);
    SplitAround(name, "" + ['@'] + tail, '@');
    SplitAround("", tail, '@');
  }

  /** A scoped specifier such as `@scope/pkg@1.0.0` starts with '@', so its
      name is empty and the scope becomes the range. */
  lemma ScopedSpecHasEmptyName(scoped: string, range: string)
    requires '@' !in scoped && scoped != "" && '@' !in range
    ensures Parse("@" + scoped + "@" + range) == Spec("", scoped)
  {
    ParseIgnoresTail("", scoped, range);
    ParseFormat(Spec("", scoped));
    assert "" + "@" + scoped == "@" + scoped;
  }
}

=== FILE: pipeline.dfy ===
/** `fetch(registry, packageSpec, destDir)` (fetch.js lines 18-34) with its
    scratch-file disposer (lines 87-90), as a linear pipeline: metadata, pick,
    download to a scratch file, hash, compare, copy, and release of the scratch
    file. Every I/O step is an input outcome; hashing, JSON parsing, semver and
    path joining are pure foreign functions. */
module Pipeline {
  import opened Wrappers
  import opened Errors
  import opened Streams
  import opened Registry
  import opened PackageSpec
  import opened Locations

  /** The pure functions the fetcher borrows from libraries. */
  datatype Foreign = Foreign(
    semver: Semver,
    parseJson: string -> Option<Document>,   // JSON.parse, None on a syntax error
    sha1: Bytes -> string,                   // hex sha1 digest of a file's content
    pathJoin: (string, string) -> string)    // path.join

  /** How each I/O step of one run turns out. A `Failure` carries the
      underlying error's message. */
  datatype World = World(
    metadata: Result<string, string>,             // GET <registry>/<name>, body concatenated
    tarball: Result<seq<StreamEvent>, string>,    // GET dist.tarball: the response's events
    scratch: Result<string, string>,              // tmp.tmpName
    hashError: Option<string>,                    // hash_file failing to read the scratch file
    copy: seq<StreamEvent>,                       // events of copying scratch to destination
    unlinkSucceeds: bool)                         // fs.unlinkSync on the scratch path

  /** The I/O steps a run performs, in order. */
  datatype Effect =
    | GetMetadata(uri: string)
    | GetTarball(uri: string)
    | Reserve(path: string)                 // a scratch name is obtained
    | WriteScratch(path: string)            // the download is piped into it
    | Hash(path: string, digest: Option<string>)
    | Copy(src: string, dst: string)
    | Unlink(path: string)

  /** `Done`: the promise resolves; `Failed`: it rejects; `Stalled`: it never
      settles because a stream never reports an end. */
  datatype Outcome = Done | Failed(error: FetchError) | Stalled

  /** The outcome, the file system afterwards, and the effects performed. */
  datatype Run = Run(outcome: Outcome, fs: map<string, Bytes>, trace: seq<Effect>)

  /** The stage of an effect in the pipeline's fixed order. */
  function Stage(e: Effect): nat
  {
    match e
    case GetMetadata(_) => 0
    case GetTarball(_) => 1
    case Reserve(_) => 2
    case WriteScratch(_) => 3
    case Hash(_, _) => 4
    case Copy(_, _) => 5
    case Unlink(_) => 6
  }

  /** Stages strictly increase: no step is repeated or revisited. */
  ghost predicate Linear(trace: seq<Effect>)
  {
    forall i, j :: 0 <= i < j < |trace| ==> Stage(trace[i]) < Stage(trace[j])
  }

  /** Every effect of the trace is in stages `lo` to `hi`. */
  ghost predicate Within(trace: seq<Effect>, lo: nat, hi: nat)
  {
    forall e :: e in trace ==> lo <= Stage(e) <= hi
  }

  /** Two linear traces, the second starting at a later stage than the first
      ends, make a linear trace. */
  lemma LinearAppend(a: seq<Effect>, b: seq<Effect>, lo: nat, mid: nat, hi: nat)
    requires lo <= mid <= hi
    requires Linear(a) && Linear(b) && Within(a, lo, mid) && Within(b, mid + 1, hi)
    ensures Linear(a + b) && Within(a + b, lo, hi)
  {
    var t := a + b;
    forall e | e in t
      ensures lo <= Stage(e) <= hi
    {
      assert e in a || e in b;
    }
    forall i, j | 0 <= i < j < |t|
      ensures Stage(t[i]) < Stage(t[j])
    {
      if j < |a| {
        assert t[i] == a[i] && t[j] == a[j];
      } else if i >= |a| {
        assert t[i] == b[i - |a|] && t[j] == b[j - |a|];
      } else {
        assert t[i] == a[i] && a[i] in a;
        assert t[j] == b[j - |a|] && b[j - |a|] in b;
      }
    }
  }

  /** `fs'` is `fs` except perhaps at the paths in `touched`. */
  ghost predicate SameExcept(fs: map<string, Bytes>, fs': map<string, Bytes>, touched: set<string>)
  {
    forall p :: p !in touched ==> (p in fs <==> p in fs') && (p in fs ==> fs[p] == fs'[p])
  }

  /** Metadata, pick and `pkg.dist`: the `dist` object the pipeline downloads,
      or the error that ends the run before any download. */
  function ResolveDist(f: Foreign, w: World, spec: Spec, uri: string): (r: Result<Dist, FetchError>)
    ensures r.Success? <==>
      w.metadata.Success? && f.parseJson(w.metadata.value).Some? &&
      var picked := Pick(spec.range, f.parseJson(w.metadata.value).value, f.semver);
      picked.Success? && picked.value.Some? && picked.value.value.dist.Some?
    ensures r.Success? ==>
      Pick(spec.range, f.parseJson(w.metadata.value).value, f.semver) == Success(Some(Manifest(Some(r.value))))
    ensures w.metadata.Failure? ==> r == Failure(IoError(w.metadata.error))
    ensures w.metadata.Success? && f.parseJson(w.metadata.value).None? ==> r == Failure(InvalidJson(uri))
    // a failed pick passes its error on; no record, or a record without
    // `dist`, is the TypeError of reading `pkg.dist.tarball`
    ensures w.metadata.Success? && f.parseJson(w.metadata.value).Some? && r.Failure? ==>
      var picked := Pick(spec.range, f.parseJson(w.metadata.value).value, f.semver);
      r.error == (if picked.Failure? then picked.error else TypeError)
  {
    match w.metadata
    case Failure(cause) => Failure(IoError(cause))
    case Success(body) =>
      match f.parseJson(body)
      case None => Failure(InvalidJson(uri))
      case Some(doc) =>
        match Pick(spec.range, doc, f.semver)
        case Failure(e) => Failure(e)
        case Success(None) => Failure(TypeError)
        case Success(Some(m)) =>
          match m.dist
          case None => Failure(TypeError)
          case Some(dist) => Success(dist)
  }

  /** The disposer: unlink the scratch path; an unlink error is swallowed, so
      the outcome is kept. */
  function Release(w: World, outcome: Outcome, tmp: string, fs: map<string, Bytes>, trace: seq<Effect>): (r: Run)
    ensures r.outcome == outcome && r.trace == trace + [Unlink(tmp)]
    ensures w.unlinkSucceeds ==> tmp !in r.fs
    ensures SameExcept(fs, r.fs, {tmp})
  {
    Run(outcome, if w.unlinkSucceeds then fs - {tmp} else fs, trace + [Unlink(tmp)])
  }

  /** The outcome of a promise that settled as `s`. */
  function ToOutcome(s: Settled): (o: Outcome)
    ensures o.Done? <==> s.Resolved?
    ensures o.Stalled? <==> s.Pending?
    ensures s.Rejected? ==> o == Failed(s.error)
  {
    match s
    case Resolved => Done
    case Rejected(e) => Failed(e)
    case Pending => Stalled
  }

  /** Hash the scratch file, compare with `dist.shasum`, and only on a match
      `copy(tmp, join(destDir, file name))`. */
  function Verify(f: Foreign, w: World, dist: Dist, destDir: string, fs: map<string, Bytes>, tmp: string): (r: Run)
    requires tmp in fs
    ensures 1 <= |r.trace| <= 2
    ensures r.trace[0] == Hash(tmp, if w.hashError.Some? then None else Some(f.sha1(fs[tmp])))
    // the copy happens exactly when the digest was computed and equals the shasum
    ensures |r.trace| == 2 <==> w.hashError.None? && f.sha1(fs[tmp]) == dist.shasum
    ensures |r.trace| == 2 ==>
      var dest := DestinationPath(f.pathJoin, destDir, dist.tarball);
      r.trace[1] == Copy(tmp, dest) && r.fs == Store(fs, dest, w.copy) &&
      r.outcome == ToOutcome(WriteStreamToFile(w.copy, dest))
    ensures |r.trace| == 1 ==> r.fs == fs && r.outcome.Failed?
    ensures w.hashError.Some? ==> r.outcome == Failed(IoError(w.hashError.value))
    ensures |r.trace| == 1 && w.hashError.None? ==> r.outcome == Failed(ChecksumInvalid(dist.tarball, tmp))
  {
    match w.hashError
    case Some(cause) => Run(Failed(IoError(cause)), fs, [Hash(tmp, None)])
    case None =>
      var digest := f.sha1(fs[tmp]);
      if dist.shasum != digest then
        Run(Failed(ChecksumInvalid(dist.tarball, tmp)), fs, [Hash(tmp, Some(digest))])
      else
        var dest := DestinationPath(f.pathJoin, destDir, dist.tarball);
        Run(ToOutcome(WriteStreamToFile(w.copy, dest)), Store(fs, dest, w.copy),
            [Hash(tmp, Some(digest)), Copy(tmp, dest)])
  }

  /** The archive was downloaded completely into a scratch file. */
  ghost predicate Downloaded(w: World)
  {
    w.scratch.Success? && w.tarball.Success? &&
    WriteStreamToFile(w.tarball.value, w.scratch.value).Resolved?
  }

  /** ... and was hashed, and its digest equals `dist.shasum`. */
  ghost predicate DigestMatches(f: Foreign, w: World, dist: Dist)
  {
    Downloaded(w) && w.hashError.None? && f.sha1(Written(w.tarball.value)) == dist.shasum
  }

  /** The callback of `Promise.using`: `writeStreamToFile(src, tmp)`, then
      hash, compare and copy once the download finished. */
  function ScratchBody(f: Foreign, w: World, dist: Dist, destDir: string, fs: map<string, Bytes>,
                       events: seq<StreamEvent>, tmp: string): (r: Run)
    requires w.tarball == Success(events) && w.scratch == Success(tmp)
    ensures |r.trace| >= 1 && r.trace[0] == WriteScratch(tmp)
    // the checksum gate
    ensures forall e :: e in r.trace && e.Copy? ==>
      DigestMatches(f, w, dist) && e == Copy(tmp, DestinationPath(f.pathJoin, destDir, dist.tarball)) &&
      Hash(tmp, Some(dist.shasum)) in r.trace
    ensures DigestMatches(f, w, dist) ==> Copy(tmp, DestinationPath(f.pathJoin, destDir, dist.tarball)) in r.trace
    // the scratch file holds the download (if it could be opened); the
    // destination changes only after a match
    ensures !DigestMatches(f, w, dist) ==> r.fs == Store(fs, tmp, events)
    ensures DigestMatches(f, w, dist) ==>
      r.fs == Store(fs[tmp := Written(events)], DestinationPath(f.pathJoin, destDir, dist.tarball), w.copy)
    // the outcome
    ensures r.outcome.Done? <==>
      DigestMatches(f, w, dist) && WriteStreamToFile(w.copy, DestinationPath(f.pathJoin, destDir, dist.tarball)).Resolved?
    ensures !Downloaded(w) ==> r.outcome == ToOutcome(WriteStreamToFile(events, tmp))
    ensures Downloaded(w) && w.hashError.Some? ==> r.outcome == Failed(IoError(w.hashError.value))
    ensures Downloaded(w) && w.hashError.None? && !DigestMatches(f, w, dist) ==>
      r.outcome == Failed(ChecksumInvalid(dist.tarball, tmp))
  {
    var fs1 := Store(fs, tmp, events);
    var s := WriteStreamToFile(events, tmp);
    if s.Resolved? then
      ResolvedOpened(events, tmp);
      var v := Verify(f, w, dist, destDir, fs1, tmp);
      Run(v.outcome, v.fs, [WriteScratch(tmp)] + v.trace)
    else
      Run(ToOutcome(s), fs1, [WriteScratch(tmp)])
  }

  /** The block once a scratch name `tmp` was obtained: run the body if the
      tarball response arrived, and release `tmp` when the block settles. */
  function Scoped(f: Foreign, w: World, dist: Dist, destDir: string, fs: map<string, Bytes>, tmp: string): (r: Run)
    requires w.scratch == Success(tmp)
    ensures |r.trace| >= 1 && r.trace[0] == Reserve(tmp)
  {
    var t1 := [Reserve(tmp)];
    match w.tarball
    case Failure(cause) =>
      Release(w, Failed(IoError(cause)), tmp, fs, t1)
    case Success(events) =>
      var b := ScratchBody(f, w, dist, destDir, fs, events, tmp);
      if b.outcome.Stalled? then Run(Stalled, b.fs, t1 + b.trace)
      else Release(w, b.outcome, tmp, b.fs, t1 + b.trace)
  }

  /** `Promise.using(getStream(dist.tarball), tmpName(), body)`: both resources
      are requested in that order; if either fails the first failure (in
      argument order) rejects the block; the scratch name, once obtained, is
      released when the block settles. */
  function Using(f: Foreign, w: World, dist: Dist, destDir: string, fs: map<string, Bytes>): (r: Run)
    ensures |r.trace| >= 1 && r.trace[0] == GetTarball(dist.tarball)
  {
    var t0 := [GetTarball(dist.tarball)];
    match w.scratch
    case Failure(cause) =>
      Run(Failed(IoError(if w.tarball.Failure? then w.tarball.error else cause)), fs, t0)
    case Success(tmp) =>
      var s := Scoped(f, w, dist, destDir, fs, tmp);
      Run(s.outcome, s.fs, t0 + s.trace)
  }

  /** The `dist` object a fetch of `packageSpec` downloads, or the error that
      ends it before any download. */
  function PickedDist(f: Foreign, w: World, registry: string, packageSpec: string): (r: Result<Dist, FetchError>)
    ensures w.metadata.Success? && f.parseJson(w.metadata.value).None? ==>
      r == Failure(InvalidJson(registry + "/" + Parse(packageSpec).name))
    ensures r.Success? ==>
      w.metadata.Success? && f.parseJson(w.metadata.value).Some? &&
      Pick(Parse(packageSpec).range, f.parseJson(w.metadata.value).value, f.semver) == Success(Some(Manifest(Some(r.value))))
  {
    var spec := Parse(packageSpec);
    ResolveDist(f, w, spec, MetadataUri(registry, spec.name))
  }

  /** `fetch(registry, packageSpec, destDir)` over the file system `fs`. */
  function Fetch(f: Foreign, w: World, registry: string, packageSpec: string, destDir: string,
                 fs: map<string, Bytes>): (r: Run)
    ensures |r.trace| >= 1 && r.trace[0] == GetMetadata(registry + "/" + Parse(packageSpec).name)
    ensures PickedDist(f, w, registry, packageSpec).Failure? ==>
      r == Run(Failed(PickedDist(f, w, registry, packageSpec).error), fs, r.trace[..1])
  {
    var spec := Parse(packageSpec);
    var uri := MetadataUri(registry, spec.name);
    match ResolveDist(f, w, spec, uri)
    case Failure(e) => Run(Failed(e), fs, [GetMetadata(uri)])
    case Success(dist) =>
      var u := Using(f, w, dist, destDir, fs);
      Run(u.outcome, u.fs, [GetMetadata(uri)] + u.trace)
  }

  /** Each stage of the pipeline performs its steps in stage order, within
      its own range of stages. */
  lemma VerifyLinear(f: Foreign, w: World, dist: Dist, destDir: string, fs: map<string, Bytes>, tmp: string)
    requires tmp in fs
    ensures var r := Verify(f, w, dist, destDir, fs, tmp);
      Linear(r.trace) && Within(r.trace, 4, 5)
  {
    var r := Verify(f, w, dist, destDir, fs, tmp);
    if |r.trace| == 2 {
      assert Stage(r.trace[0]) == 4 && Stage(r.trace[1]) == 5;
    } else {
      assert Stage(r.trace[0]) == 4;
    }
  }

  lemma ScratchBodyLinear(f: Foreign, w: World, dist: Dist, destDir: string, fs: map<string, Bytes>,
                          events: seq<StreamEvent>, tmp: string)
    requires w.tarball == Success(events) && w.scratch == Success(tmp)
    ensures var r := ScratchBody(f, w, dist, destDir, fs, events, tmp);
      Linear(r.trace) && Within(r.trace, 3, 5)
  {
    var fs1 := Store(fs, tmp, events);
    if WriteStreamToFile(events, tmp).Resolved? {
      ResolvedOpened(events, tmp);
      var v := Verify(f, w, dist, destDir, fs1, tmp);
      VerifyLinear(f, w, dist, destDir, fs1, tmp);
      LinearAppend([WriteScratch(tmp)], v.trace, 3, 3, 5);
    }
  }

  lemma ScopedLinear(f: Foreign, w: World, dist: Dist, destDir: string, fs: map<string, Bytes>, tmp: string)
    requires w.scratch == Success(tmp)
    ensures var r := Scoped(f, w, dist, destDir, fs, tmp);
      Linear(r.trace) && Within(r.trace, 2, 6)
  {
    var r := Scoped(f, w, dist, destDir, fs, tmp);
    var t1 := [Reserve(tmp)];
    match w.tarball
    case Failure(_) =>
      LinearAppend(t1, [Unlink(tmp)], 2, 2, 6);
      assert r.trace == t1 + [Unlink(tmp)];
    case Success(events) =>
      var b := ScratchBody(f, w, dist, destDir, fs, events, tmp);
      ScratchBodyLinear(f, w, dist, destDir, fs, events, tmp);
      LinearAppend(t1, b.trace, 2, 2, 5);
      if b.outcome.Stalled? {
        assert r.trace == t1 + b.trace;
      } else {
        LinearAppend(t1 + b.trace, [Unlink(tmp)], 2, 5, 6);
        assert r.trace == t1 + b.trace + [Unlink(tmp)];
      }
  }

  lemma UsingLinear(f: Foreign, w: World, dist: Dist, destDir: string, fs: map<string, Bytes>)
    ensures var r := Using(f, w, dist, destDir, fs);
      Linear(r.trace) && Within(r.trace, 1, 6)
  {
    var t0 := [GetTarball(dist.tarball)];
    if w.scratch.Success? {
      var s := Scoped(f, w, dist, destDir, fs, w.scratch.value);
      ScopedLinear(f, w, dist, destDir, fs, w.scratch.value);
      LinearAppend(t0, s.trace, 1, 1, 6);
    }
  }

  /** No step of a fetch is repeated, and the steps follow the pipeline's
      order. */
  lemma FetchLinear(f: Foreign, w: World, registry: string, packageSpec: string, destDir: string,
                    fs: map<string, Bytes>)
    ensures Linear(Fetch(f, w, registry, packageSpec, destDir, fs).trace)
  {
    var spec := Parse(packageSpec);
    var uri := MetadataUri(registry, spec.name);
    var d := ResolveDist(f, w, spec, uri);
    if d.Success? {
      var u := Using(f, w, d.value, destDir, fs);
      UsingLinear(f, w, d.value, destDir, fs);
      LinearAppend([GetMetadata(uri)], u.trace, 0, 0, 6);
    }
  }
}

=== FILE: pipeline_properties.dfy ===
/** What a fetch guarantees: the checksum gate before the copy, release of the
    scratch file on every exit, the outcome of each failure, and the content
    placed at the destination. */
module PipelineProperties {
  import opened Wrappers
  import Strings
  import opened Errors
  import opened Streams
  import opened Registry
  import opened PackageSpec
  import opened Locations
  import opened Pipeline

  /** The checksum gate inside the scoped block. */
  lemma ScopedGate(f: Foreign, w: World, dist: Dist, destDir: string, fs: map<string, Bytes>, tmp: string)
    requires w.scratch == Success(tmp)
    ensures var r := Scoped(f, w, dist, destDir, fs, tmp);
      var dest := DestinationPath(f.pathJoin, destDir, dist.tarball);
      (forall e :: e in r.trace && e.Copy? ==>
        DigestMatches(f, w, dist) && e == Copy(tmp, dest) && Hash(tmp, Some(dist.shasum)) in r.trace) &&
      (DigestMatches(f, w, dist) ==> Copy(tmp, dest) in r.trace)
  {
    var r := Scoped(f, w, dist, destDir, fs, tmp);
    if w.tarball.Success? {
      var b := ScratchBody(f, w, dist, destDir, fs, w.tarball.value, tmp);
      assert r.trace == [Reserve(tmp)] + b.trace || r.trace == [Reserve(tmp)] + b.trace + [Unlink(tmp)];
    } else {
      assert r.trace == [Reserve(tmp), Unlink(tmp)];
    }
  }

  /** The scoped block reserves `tmp` and, unless it never settles, ends by
      unlinking it. */
  lemma ScopedRelease(f: Foreign, w: World, dist: Dist, destDir: string, fs: map<string, Bytes>, tmp: string)
    requires w.scratch == Success(tmp)
    ensures var r := Scoped(f, w, dist, destDir, fs, tmp);
      (forall e :: e in r.trace && e.Reserve? ==> e == Reserve(tmp)) &&
      (r.outcome != Stalled ==> r.trace[|r.trace| - 1] == Unlink(tmp)) &&
      (forall e :: e in r.trace && e.Unlink? ==> e == Unlink(tmp) && r.outcome != Stalled)
  {
    var r := Scoped(f, w, dist, destDir, fs, tmp);
    if w.tarball.Success? {
      var b := ScratchBody(f, w, dist, destDir, fs, w.tarball.value, tmp);
      assert Within(b.trace, 3, 5) by {
        ScratchBodyLinear(f, w, dist, destDir, fs, w.tarball.value, tmp);
      }
      var t := [Reserve(tmp)] + b.trace;
      if b.outcome.Stalled? {
        assert r.trace == t;
      } else {
        assert r.trace == t + [Unlink(tmp)];
      }
      forall e | e in t
        ensures !e.Unlink? && (e.Reserve? ==> e == Reserve(tmp))
      {
        assert e == Reserve(tmp) || e in b.trace;
      }
    } else {
      assert r.trace == [Reserve(tmp), Unlink(tmp)];
    }
  }

  /** How the scoped block ends, by the first step that does not succeed. */
  lemma ScopedOutcome(f: Foreign, w: World, dist: Dist, destDir: string, fs: map<string, Bytes>, tmp: string)
    requires w.scratch == Success(tmp)
    ensures var r := Scoped(f, w, dist, destDir, fs, tmp);
      var dest := DestinationPath(f.pathJoin, destDir, dist.tarball);
      (w.tarball.Failure? ==> r.outcome == Failed(IoError(w.tarball.error))) &&
      (w.tarball.Success? && !Downloaded(w) ==> r.outcome == ToOutcome(WriteStreamToFile(w.tarball.value, tmp))) &&
      (Downloaded(w) && w.hashError.Some? ==> r.outcome == Failed(IoError(w.hashError.value))) &&
      (Downloaded(w) && w.hashError.None? && !DigestMatches(f, w, dist) ==>
        r.outcome == Failed(ChecksumInvalid(dist.tarball, tmp))) &&
      (DigestMatches(f, w, dist) ==> r.outcome == ToOutcome(WriteStreamToFile(w.copy, dest)))
  {
    if w.tarball.Success? {
      var events := w.tarball.value;
      var b := ScratchBody(f, w, dist, destDir, fs, events, tmp);
      if Downloaded(w) {
        ResolvedOpened(events, tmp);
        var v := Verify(f, w, dist, destDir, Store(fs, tmp, events), tmp);
        assert b.outcome == v.outcome;
      }
    }
  }

  /** The scoped block writes the scratch file, writes the destination only
      after a digest match and only if the destination could be opened, and
      removes the scratch file when the unlink succeeds. A scratch file that
      could not be opened is never created. */
  lemma ScopedFileSystem(f: Foreign, w: World, dist: Dist, destDir: string, fs: map<string, Bytes>, tmp: string)
    requires w.scratch == Success(tmp)
    ensures var r := Scoped(f, w, dist, destDir, fs, tmp);
      var dest := DestinationPath(f.pathJoin, destDir, dist.tarball);
      (!DigestMatches(f, w, dist) ==> SameExcept(fs, r.fs, {tmp})) &&
      (DigestMatches(f, w, dist) ==> SameExcept(fs, r.fs, {tmp, dest})) &&
      (DigestMatches(f, w, dist) && dest != tmp && Opened(w.copy) ==> dest in r.fs && r.fs[dest] == Written(w.copy)) &&
      (DigestMatches(f, w, dist) && !Opened(w.copy) ==> SameExcept(fs, r.fs, {tmp})) &&
      (w.tarball.Success? && !Opened(w.tarball.value) && tmp !in fs ==> r.fs == fs) &&
      (w.unlinkSucceeds && r.outcome != Stalled ==> tmp !in r.fs)
  {
    var r := Scoped(f, w, dist, destDir, fs, tmp);
    if w.tarball.Success? {
      var events := w.tarball.value;
      var b := ScratchBody(f, w, dist, destDir, fs, events, tmp);
      assert r.fs == b.fs || r.fs == Release(w, b.outcome, tmp, b.fs, []).fs;
      if !Opened(events) && tmp !in fs {
        NotOpenedRejects(events, tmp);
        assert b.fs == fs;
        assert fs - {tmp} == fs;
      }
    }
  }

  /** The `dist` was resolved and the downloaded archive's digest equals its
      `shasum`. */
  ghost predicate Matched(f: Foreign, w: World, registry: string, packageSpec: string)
  {
    PickedDist(f, w, registry, packageSpec).Success? &&
    DigestMatches(f, w, PickedDist(f, w, registry, packageSpec).value)
  }

  /** Where a resolved fetch copies the archive. */
  function Destination(f: Foreign, w: World, registry: string, packageSpec: string, destDir: string): string
    requires PickedDist(f, w, registry, packageSpec).Success?
  {
    DestinationPath(f.pathJoin, destDir, PickedDist(f, w, registry, packageSpec).value.tarball)
  }

  /** `Promise.using` requests the tarball, then either fails on the scratch
      name or runs the scoped block. */
  lemma UsingStages(f: Foreign, w: World, dist: Dist, destDir: string, fs: map<string, Bytes>)
    ensures var u := Using(f, w, dist, destDir, fs);
      (w.scratch.Failure? ==>
        (u.trace == [GetTarball(dist.tarball)] && u.fs == fs &&
         u.outcome == Failed(IoError(if w.tarball.Failure? then w.tarball.error else w.scratch.error)))) &&
      (w.scratch.Success? ==>
        var s := Scoped(f, w, dist, destDir, fs, w.scratch.value);
        u.trace == [GetTarball(dist.tarball)] + s.trace && u.fs == s.fs && u.outcome == s.outcome)
  {
  }

  /** A resolved fetch is the metadata request followed by `Promise.using`. */
  lemma FetchThroughUsing(f: Foreign, w: World, registry: string, packageSpec: string, destDir: string,
                          fs: map<string, Bytes>)
    requires PickedDist(f, w, registry, packageSpec).Success?
    ensures var u := Using(f, w, PickedDist(f, w, registry, packageSpec).value, destDir, fs);
      Fetch(f, w, registry, packageSpec, destDir, fs) ==
        Run(u.outcome, u.fs, [GetMetadata(MetadataUri(registry, Parse(packageSpec).name))] + u.trace)
  {
  }

  /** A fetch is the metadata request followed by the scoped block, or ends
      early when the `dist` or the scratch name cannot be obtained. */
  lemma FetchStages(f: Foreign, w: World, registry: string, packageSpec: string, destDir: string, fs: map<string, Bytes>)
    ensures var r := Fetch(f, w, registry, packageSpec, destDir, fs);
      var d := PickedDist(f, w, registry, packageSpec);
      var get := GetMetadata(MetadataUri(registry, Parse(packageSpec).name));
      (d.Failure? ==> r == Run(Failed(d.error), fs, [get])) &&
      (d.Success? && w.scratch.Failure? ==>
        r.trace == [get, GetTarball(d.value.tarball)] && r.fs == fs && r.outcome.Failed?) &&
      (d.Success? && w.scratch.Success? ==>
        var s := Scoped(f, w, d.value, destDir, fs, w.scratch.value);
        r.trace == [get, GetTarball(d.value.tarball)] + s.trace && r.fs == s.fs && r.outcome == s.outcome)
  {
    var d := PickedDist(f, w, registry, packageSpec);
    var get := GetMetadata(MetadataUri(registry, Parse(packageSpec).name));
    if d.Success? {
      FetchThroughUsing(f, w, registry, packageSpec, destDir, fs);
      UsingStages(f, w, d.value, destDir, fs);
      if w.scratch.Success? {
        var sc := Scoped(f, w, d.value, destDir, fs, w.scratch.value);
        assert [get] + ([GetTarball(d.value.tarball)] + sc.trace) == [get, GetTarball(d.value.tarball)] + sc.trace;
      }
    } else {
      assert MetadataUri(registry, Parse(packageSpec).name) == registry + "/" + Parse(packageSpec).name;
    }
  }

  /** The checksum gate: the archive is copied exactly when its digest equals
      `dist.shasum`, only from the scratch file to the destination, and only
      after the matching hash. */
  lemma FetchChecksumGate(f: Foreign, w: World, registry: string, packageSpec: string, destDir: string, fs: map<string, Bytes>)
    ensures var r := Fetch(f, w, registry, packageSpec, destDir, fs);
      (forall e :: e in r.trace && e.Copy? ==>
        Matched(f, w, registry, packageSpec) &&
        e == Copy(w.scratch.value, Destination(f, w, registry, packageSpec, destDir)) &&
        Hash(e.src, Some(PickedDist(f, w, registry, packageSpec).value.shasum)) in r.trace) &&
      (Matched(f, w, registry, packageSpec) ==>
        Copy(w.scratch.value, Destination(f, w, registry, packageSpec, destDir)) in r.trace)
  {
    FetchStages(f, w, registry, packageSpec, destDir, fs);
    var d := PickedDist(f, w, registry, packageSpec);
    if d.Success? && w.scratch.Success? {
      ScopedGate(f, w, d.value, destDir, fs, w.scratch.value);
    }
  }

  /** The scratch name is reserved only for a resolved fetch; whenever the
      fetch settles its last step unlinks that name, and it unlinks nothing
      else. A fetch that never settles never unlinks. */
  lemma FetchReleasesScratch(f: Foreign, w: World, registry: string, packageSpec: string, destDir: string, fs: map<string, Bytes>)
    ensures var r := Fetch(f, w, registry, packageSpec, destDir, fs);
      var acquired := PickedDist(f, w, registry, packageSpec).Success? && w.scratch.Success?;
      (forall e :: e in r.trace && e.Reserve? ==> acquired && e == Reserve(w.scratch.value)) &&
      (acquired ==> Reserve(w.scratch.value) in r.trace) &&
      (acquired && r.outcome != Stalled ==> r.trace[|r.trace| - 1] == Unlink(w.scratch.value)) &&
      (forall e :: e in r.trace && e.Unlink? ==> acquired && e == Unlink(w.scratch.value) && r.outcome != Stalled)
  {
    FetchStages(f, w, registry, packageSpec, destDir, fs);
    var d := PickedDist(f, w, registry, packageSpec);
    if d.Success? && w.scratch.Success? {
      ScopedRelease(f, w, d.value, destDir, fs, w.scratch.value);
    }
  }

  /** The scratch paths a fetch can touch. */
  function ScratchPaths(f: Foreign, w: World, registry: string, packageSpec: string): set<string>
  {
    if PickedDist(f, w, registry, packageSpec).Success? && w.scratch.Success? then {w.scratch.value} else {}
  }

  /** Nothing outside the scratch file changes unless the digest matched and
      the destination could be opened; then the destination holds what the
      copy wrote. A scratch file that could not be opened is never created,
      and a successful unlink leaves no scratch file behind. */
  lemma FetchFileSystem(f: Foreign, w: World, registry: string, packageSpec: string, destDir: string, fs: map<string, Bytes>)
    ensures var r := Fetch(f, w, registry, packageSpec, destDir, fs);
      (!Matched(f, w, registry, packageSpec) ==> SameExcept(fs, r.fs, ScratchPaths(f, w, registry, packageSpec))) &&
      (Matched(f, w, registry, packageSpec) ==>
        var dest := Destination(f, w, registry, packageSpec, destDir);
        SameExcept(fs, r.fs, {w.scratch.value, dest}) &&
        (dest != w.scratch.value && Opened(w.copy) ==> dest in r.fs && r.fs[dest] == Written(w.copy)) &&
        (!Opened(w.copy) ==> SameExcept(fs, r.fs, {w.scratch.value}))) &&
      ((ScratchPaths(f, w, registry, packageSpec) != {} && w.tarball.Success? && !Opened(w.tarball.value) &&
        w.scratch.value !in fs) ==> r.fs == fs) &&
      (w.unlinkSucceeds && r.outcome != Stalled ==> forall p :: p in ScratchPaths(f, w, registry, packageSpec) ==> p !in r.fs)
  {
    FetchStages(f, w, registry, packageSpec, destDir, fs);
    var d := PickedDist(f, w, registry, packageSpec);
    if d.Success? && w.scratch.Success? {
      ScopedFileSystem(f, w, d.value, destDir, fs, w.scratch.value);
    }
  }

  /** After a digest match the fetch settles as the copy does. */
  lemma FetchSettlesAsCopy(f: Foreign, w: World, registry: string, packageSpec: string, destDir: string,
                           fs: map<string, Bytes>)
    requires Matched(f, w, registry, packageSpec)
    ensures Fetch(f, w, registry, packageSpec, destDir, fs).outcome ==
      ToOutcome(WriteStreamToFile(w.copy, Destination(f, w, registry, packageSpec, destDir)))
  {
    var d := PickedDist(f, w, registry, packageSpec);
    FetchStages(f, w, registry, packageSpec, destDir, fs);
    ScopedOutcome(f, w, d.value, destDir, fs, w.scratch.value);
  }

  /** A fetch succeeds exactly when the digest matched and the copy finished. */
  lemma FetchSucceeds(f: Foreign, w: World, registry: string, packageSpec: string, destDir: string, fs: map<string, Bytes>)
    ensures var r := Fetch(f, w, registry, packageSpec, destDir, fs);
      r.outcome.Done? <==>
        Matched(f, w, registry, packageSpec) &&
        WriteStreamToFile(w.copy, Destination(f, w, registry, packageSpec, destDir)).Resolved?
  {
    FetchStages(f, w, registry, packageSpec, destDir, fs);
    var d := PickedDist(f, w, registry, packageSpec);
    if d.Success? && w.scratch.Success? {
      ScopedOutcome(f, w, d.value, destDir, fs, w.scratch.value);
    }
  }

  /** A digest that differs from `dist.shasum` rejects with an error naming
      the tarball and the scratch path; nothing is copied, nothing but the
      scratch file changes. */
  lemma FetchChecksumMismatch(f: Foreign, w: World, registry: string, packageSpec: string, destDir: string, fs: map<string, Bytes>)
    requires PickedDist(f, w, registry, packageSpec).Success?
    requires Downloaded(w) && w.hashError.None?
    requires f.sha1(Written(w.tarball.value)) != PickedDist(f, w, registry, packageSpec).value.shasum
    ensures var r := Fetch(f, w, registry, packageSpec, destDir, fs);
      var tarball := PickedDist(f, w, registry, packageSpec).value.tarball;
      r.outcome == Failed(ChecksumInvalid(tarball, w.scratch.value)) &&
      (forall e :: e in r.trace ==> !e.Copy?) &&
      SameExcept(fs, r.fs, {w.scratch.value}) &&
      (w.unlinkSucceeds ==> w.scratch.value !in r.fs)
  {
    var d := PickedDist(f, w, registry, packageSpec);
    FetchStages(f, w, registry, packageSpec, destDir, fs);
    ScopedOutcome(f, w, d.value, destDir, fs, w.scratch.value);
    FetchChecksumGate(f, w, registry, packageSpec, destDir, fs);
    FetchFileSystem(f, w, registry, packageSpec, destDir, fs);
  }

  /** An aborted download rejects with the error naming the scratch file,
      unlike a failed request, which passes its own error on. */
  lemma FetchAbortedDownload(f: Foreign, w: World, registry: string, packageSpec: string, destDir: string,
                             fs: map<string, Bytes>, i: nat)
    requires PickedDist(f, w, registry, packageSpec).Success? && w.scratch.Success? && w.tarball.Success?
    requires SettlesAt(w.tarball.value, i) && w.tarball.value[i] == Abort
    ensures var r := Fetch(f, w, registry, packageSpec, destDir, fs);
      r.outcome == Failed(SourceAborted(w.scratch.value)) &&
      Strings.Contains(Message(r.outcome.error).value, w.scratch.value) &&
      (forall e :: e in r.trace ==> !e.Copy?) &&
      SameExcept(fs, r.fs, {w.scratch.value})
  {
    var d := PickedDist(f, w, registry, packageSpec);
    FetchStages(f, w, registry, packageSpec, destDir, fs);
    ScopedOutcome(f, w, d.value, destDir, fs, w.scratch.value);
    FetchChecksumGate(f, w, registry, packageSpec, destDir, fs);
    FetchFileSystem(f, w, registry, packageSpec, destDir, fs);
  }

  /** An error event that settles the download (from the response, or from
      the scratch file's stream, a failed open included) ends the fetch with
      that error unchanged; nothing is copied. */
  lemma FetchDownloadError(f: Foreign, w: World, registry: string, packageSpec: string, destDir: string,
                           fs: map<string, Bytes>, i: nat)
    requires PickedDist(f, w, registry, packageSpec).Success? && w.scratch.Success? && w.tarball.Success?
    requires SettlesAt(w.tarball.value, i)
    requires w.tarball.value[i].SourceError? || w.tarball.value[i].SinkOpenError? || w.tarball.value[i].SinkError?
    ensures var r := Fetch(f, w, registry, packageSpec, destDir, fs);
      r.outcome == Failed(IoError(w.tarball.value[i].cause)) &&
      (forall e :: e in r.trace ==> !e.Copy?) &&
      SameExcept(fs, r.fs, {w.scratch.value})
  {
    var d := PickedDist(f, w, registry, packageSpec);
    FetchStages(f, w, registry, packageSpec, destDir, fs);
    ScopedOutcome(f, w, d.value, destDir, fs, w.scratch.value);
    FetchChecksumGate(f, w, registry, packageSpec, destDir, fs);
    FetchFileSystem(f, w, registry, packageSpec, destDir, fs);
  }

  /** A failed tarball request rejects with its own error, never the abort error. */
  lemma FetchTarballRequestFails(f: Foreign, w: World, registry: string, packageSpec: string, destDir: string,
                                 fs: map<string, Bytes>)
    requires PickedDist(f, w, registry, packageSpec).Success? && w.tarball.Failure?
    ensures var r := Fetch(f, w, registry, packageSpec, destDir, fs);
      r.outcome == Failed(IoError(w.tarball.error)) && SameExcept(fs, r.fs, ScratchPaths(f, w, registry, packageSpec))
  {
    var d := PickedDist(f, w, registry, packageSpec);
    FetchStages(f, w, registry, packageSpec, destDir, fs);
    if w.scratch.Success? {
      ScopedOutcome(f, w, d.value, destDir, fs, w.scratch.value);
    }
    FetchFileSystem(f, w, registry, packageSpec, destDir, fs);
  }

  /** Round trip: when the digest matched and the copy, reading back the
      scratch file, finished, the fetch resolves, the destination holds
      exactly the bytes the tarball response carried before it finished, and
      they hash to `dist.shasum`. */
  lemma FetchRoundTrip(f: Foreign, w: World, registry: string, packageSpec: string, destDir: string, fs: map<string, Bytes>)
    requires Matched(f, w, registry, packageSpec)
    requires WriteStreamToFile(w.copy, Destination(f, w, registry, packageSpec, destDir)).Resolved?
    requires Written(w.copy) == Written(w.tarball.value)
    requires Destination(f, w, registry, packageSpec, destDir) != w.scratch.value
    ensures var r := Fetch(f, w, registry, packageSpec, destDir, fs);
      var dest := Destination(f, w, registry, packageSpec, destDir);
      r.outcome == Done && dest in r.fs &&
      (exists i :: SettlesAt(w.tarball.value, i) && w.tarball.value[i] == Finish &&
        r.fs[dest] == Chunks(w.tarball.value[..i])) &&
      f.sha1(r.fs[dest]) == PickedDist(f, w, registry, packageSpec).value.shasum
  {
    FetchSucceeds(f, w, registry, packageSpec, destDir, fs);
    ResolvedOpened(w.copy, Destination(f, w, registry, packageSpec, destDir));
    FetchFileSystem(f, w, registry, packageSpec, destDir, fs);
    var events := w.tarball.value;
    var k :| 0 <= k < |events| && !events[k].Data?;
    FirstSettling(events, k);
    var i :| SettlesAt(events, i);
    assert events[i] == Finish;
  }

  /** The copy writes straight to the destination: a copy that fails with a
      write error leaves there every chunk written before the error. */
  lemma FetchCopyIsNotAtomic(f: Foreign, w: World, registry: string, packageSpec: string, destDir: string,
                             fs: map<string, Bytes>, i: int)
    requires Matched(f, w, registry, packageSpec)
    requires SettlesAt(w.copy, i) && w.copy[i].SinkError?
    requires Destination(f, w, registry, packageSpec, destDir) != w.scratch.value
    ensures var r := Fetch(f, w, registry, packageSpec, destDir, fs);
      var dest := Destination(f, w, registry, packageSpec, destDir);
      r.outcome == Failed(IoError(w.copy[i].cause)) && dest in r.fs && r.fs[dest] == Chunks(w.copy[..i])
  {
    var dest := Destination(f, w, registry, packageSpec, destDir);
    FetchSettlesAsCopy(f, w, registry, packageSpec, destDir, fs);
    SinkErrorSettles(w.copy, i, dest);
    FetchFileSystem(f, w, registry, packageSpec, destDir, fs);
  }

  /** Inside the block, whether the unlink succeeds changes neither the
      outcome nor the steps. */
  lemma ScopedUnlinkErrorSwallowed(f: Foreign, w: World, dist: Dist, destDir: string, fs: map<string, Bytes>,
                                   tmp: string, unlinkSucceeds: bool)
    requires w.scratch == Success(tmp)
    ensures var r := Scoped(f, w, dist, destDir, fs, tmp);
      var r' := Scoped(f, w.(unlinkSucceeds := unlinkSucceeds), dist, destDir, fs, tmp);
      r'.outcome == r.outcome && r'.trace == r.trace
  {
    var w' := w.(unlinkSucceeds := unlinkSucceeds);
    if w.tarball.Success? {
      var events := w.tarball.value;
      var fs1 := Store(fs, tmp, events);
      if WriteStreamToFile(events, tmp).Resolved? {
        ResolvedOpened(events, tmp);
        var v := Verify(f, w, dist, destDir, fs1, tmp);
        var v' := Verify(f, w', dist, destDir, fs1, tmp);
        assert v'.trace == v.trace && v'.outcome == v.outcome;
      }
      var b := ScratchBody(f, w, dist, destDir, fs, events, tmp);
      var b' := ScratchBody(f, w', dist, destDir, fs, events, tmp);
      assert b'.trace == b.trace && b'.outcome == b.outcome;
    }
  }

  /** A destination that cannot be opened (a missing directory, say) rejects
      the fetch: with the open error, unless a source error or abort came
      first. */
  lemma FetchDestinationNotOpened(f: Foreign, w: World, registry: string, packageSpec: string, destDir: string,
                                  fs: map<string, Bytes>)
    requires Matched(f, w, registry, packageSpec)
    requires !Opened(w.copy)
    ensures var r := Fetch(f, w, registry, packageSpec, destDir, fs);
      var dest := Destination(f, w, registry, packageSpec, destDir);
      r.outcome.Failed? && r.outcome == ToOutcome(WriteStreamToFile(w.copy, dest)) &&
      (forall i :: SettlesAt(w.copy, i) && w.copy[i].SinkOpenError? ==> r.outcome == Failed(IoError(w.copy[i].cause)))
  {
    var dest := Destination(f, w, registry, packageSpec, destDir);
    FetchSettlesAsCopy(f, w, registry, packageSpec, destDir, fs);
    NotOpenedRejects(w.copy, dest);
  }

  /** A destination that cannot be opened is left as it was: the copy
      creates no file, and only the scratch file may change. */
  lemma FetchDestinationKept(f: Foreign, w: World, registry: string, packageSpec: string, destDir: string,
                             fs: map<string, Bytes>)
    requires Matched(f, w, registry, packageSpec)
    requires !Opened(w.copy)
    ensures var r := Fetch(f, w, registry, packageSpec, destDir, fs);
      var dest := Destination(f, w, registry, packageSpec, destDir);
      SameExcept(fs, r.fs, {w.scratch.value}) &&
      (dest != w.scratch.value ==> (dest in r.fs <==> dest in fs) && (dest in fs ==> r.fs[dest] == fs[dest]))
  {
    FetchFileSystem(f, w, registry, packageSpec, destDir, fs);
  }

  /** An unlink error is swallowed: whether the unlink succeeds changes
      neither the outcome nor the steps taken. */
  lemma FetchUnlinkErrorSwallowed(f: Foreign, w: World, registry: string, packageSpec: string, destDir: string,
                                  fs: map<string, Bytes>, unlinkSucceeds: bool)
    ensures var r := Fetch(f, w, registry, packageSpec, destDir, fs);
      var r' := Fetch(f, w.(unlinkSucceeds := unlinkSucceeds), registry, packageSpec, destDir, fs);
      r'.outcome == r.outcome && r'.trace == r.trace
  {
    var w' := w.(unlinkSucceeds := unlinkSucceeds);
    FetchStages(f, w, registry, packageSpec, destDir, fs);
    FetchStages(f, w', registry, packageSpec, destDir, fs);
    var d := PickedDist(f, w, registry, packageSpec);
    assert PickedDist(f, w', registry, packageSpec) == d;
    if d.Success? && w.scratch.Success? {
      ScopedUnlinkErrorSwallowed(f, w, d.value, destDir, fs, w.scratch.value, unlinkSucceeds);
    }
  }

  /** A fetch whose download never reports an end never settles, and its
      scratch name is never unlinked. */
  lemma FetchStallsOnSilentStream(f: Foreign, w: World, registry: string, packageSpec: string, destDir: string,
                                  fs: map<string, Bytes>)
    requires PickedDist(f, w, registry, packageSpec).Success? && w.scratch.Success? && w.tarball.Success?
    requires forall i :: 0 <= i < |w.tarball.value| ==> w.tarball.value[i].Data?
    ensures var r := Fetch(f, w, registry, packageSpec, destDir, fs);
      r.outcome == Stalled && Reserve(w.scratch.value) in r.trace &&
      forall e :: e in r.trace ==> !e.Unlink?
  {
    var d := PickedDist(f, w, registry, packageSpec);
    FetchStages(f, w, registry, packageSpec, destDir, fs);
    ScopedOutcome(f, w, d.value, destDir, fs, w.scratch.value);
    FetchReleasesScratch(f, w, registry, packageSpec, destDir, fs);
  }

  /** When no version satisfies a valid range, `pickPackage` returns no record
      and the fetch rejects with a `TypeError` reading its `dist`, right after
      the metadata request. */
  lemma FetchNoMatchingVersion(f: Foreign, w: World, registry: string, packageSpec: string, destDir: string,
                               fs: map<string, Bytes>, doc: Document)
    requires w.metadata.Success? && f.parseJson(w.metadata.value) == Some(doc)
    requires Parse(packageSpec).range !in Tags(doc) && f.semver.validRange(Parse(packageSpec).range)
    requires doc.versions.Some?
    requires forall i :: 0 <= i < |doc.versions.value.keys| ==>
      !f.semver.satisfies(doc.versions.value.keys[i], Parse(packageSpec).range)
    ensures Fetch(f, w, registry, packageSpec, destDir, fs) ==
      Run(Failed(TypeError), fs, [GetMetadata(MetadataUri(registry, Parse(packageSpec).name))])
  {
    FetchStages(f, w, registry, packageSpec, destDir, fs);
  }

  /** An invalid range that is not a dist-tag rejects with the error naming
      the range, before any download. */
  lemma FetchInvalidRange(f: Foreign, w: World, registry: string, packageSpec: string, destDir: string,
                          fs: map<string, Bytes>, doc: Document)
    requires w.metadata.Success? && f.parseJson(w.metadata.value) == Some(doc)
    requires Parse(packageSpec).range !in Tags(doc) && !f.semver.validRange(Parse(packageSpec).range)
    ensures var r := Fetch(f, w, registry, packageSpec, destDir, fs);
      r == Run(Failed(InvalidRange(Parse(packageSpec).range)), fs,
               [GetMetadata(MetadataUri(registry, Parse(packageSpec).name))]) &&
      Strings.Contains(Message(r.outcome.error).value, Parse(packageSpec).range)
  {
    FetchStages(f, w, registry, packageSpec, destDir, fs);
  }
}

=== FILE: registry.dfy ===
/** Choosing a version record from a registry metadata document: `pickPackage`
    (fetch.js lines 56-69). The npm semver library is not part of this model:
    range validity, range satisfaction and version precedence are parameters. */
module Registry {
  import opened Wrappers
  import opened Errors

  /** The `dist` object of a version record. */
  datatype Dist = Dist(tarball: string, shasum: string)

  /** A version record; JSON may leave `dist` out. */
  datatype Manifest = Manifest(dist: Option<Dist>)

  /** The `versions` object: its keys in `Object.keys` order, and its property
      lookup. */
  datatype VersionTable = VersionTable(keys: seq<string>, records: map<string, Manifest>) {
    /** A table read from a JSON object: each key once, and exactly the
        looked-up keys. */
    ghost predicate Valid()
    {
      (forall i, j :: 0 <= i < j < |keys| ==> keys[i] != keys[j]) &&
      (forall k :: k in records <==> k in keys)
    }
  }

  /** The metadata document; `dist-tags` and `versions` may be missing. */
  datatype Document = Document(distTags: Option<map<string, string>>, versions: Option<VersionTable>)

  /** The three semver operations the fetcher uses: `validRange(r) !== null`,
      `satisfies(version, range)` and precedence, `leq(a, b)` meaning
      `compare(a, b) <= 0`. */
  datatype Semver = Semver(
    validRange: string -> bool,
    satisfies: (string, string) -> bool,
    leq: (string, string) -> bool)

  /** Precedence ranks every pair of versions and is transitive; distinct
      strings may rank equal (build metadata is ignored by semver). */
  ghost predicate TotalPreorder(leq: (string, string) -> bool)
  {
    (forall a, b :: leq(a, b) || leq(b, a)) &&
    (forall a, b, c :: leq(a, b) && leq(b, c) ==> leq(a, c))
  }

  /** A preorder in which equally ranked strings are equal. */
  ghost predicate TotalOrder(leq: (string, string) -> bool)
  {
    TotalPreorder(leq) && forall a, b :: leq(a, b) && leq(b, a) ==> a == b
  }

  /** `v` is a key satisfying the range that ranks at least as high as every
      satisfying key: the reference definition of the highest match. */
  ghost predicate IsMaxSatisfying(keys: seq<string>, range: string, sv: Semver, v: string)
  {
    v in keys && sv.satisfies(v, range) &&
    forall i :: 0 <= i < |keys| && sv.satisfies(keys[i], range) ==> sv.leq(keys[i], v)
  }

  /** `semver.maxSatisfying(keys, range)`: walk the keys in order, keeping the
      first satisfying key and replacing it by any later satisfying key that
      ranks strictly higher. */
  function MaxSatisfying(keys: seq<string>, range: string, sv: Semver): (r: Option<string>)
    ensures r.None? <==> forall i :: 0 <= i < |keys| ==> !sv.satisfies(keys[i], range)
    ensures r.Some? ==> r.value in keys && sv.satisfies(r.value, range)
    decreases |keys|
  {
    if |keys| == 0 then None
    else
      var best := MaxSatisfying(keys[..|keys| - 1], range, sv);
      var v := keys[|keys| - 1];
      assert forall i :: 0 <= i < |keys| - 1 ==> keys[..|keys| - 1][i] == keys[i];
      if !sv.satisfies(v, range) then best
      else if best.None? || (sv.leq(best.value, v) && !sv.leq(v, best.value)) then Some(v)
      else best
  }

  /** The chosen key ranks at least as high as every satisfying key. */
  lemma {:induction false} MaxSatisfyingIsGreatest(keys: seq<string>, range: string, sv: Semver)
    requires TotalPreorder(sv.leq)
    ensures var r := MaxSatisfying(keys, range, sv);
      r.Some? ==> IsMaxSatisfying(keys, range, sv, r.value)
    decreases |keys|
  {
    if |keys| > 0 {
      var prefix := keys[..|keys| - 1];
      MaxSatisfyingIsGreatest(prefix, range, sv);
      assert forall i :: 0 <= i < |keys| - 1 ==> prefix[i] == keys[i];
    }
  }

  /** Among equally ranked satisfying keys the walk keeps the earliest: every
      satisfying key before the chosen one ranks strictly lower. */
  lemma {:induction false} MaxSatisfyingKeepsEarliest(keys: seq<string>, range: string, sv: Semver)
    requires TotalPreorder(sv.leq)
    ensures var r := MaxSatisfying(keys, range, sv);
      r.Some? ==> (exists i :: 0 <= i < |keys| && keys[i] == r.value &&
                     forall j :: 0 <= j < i && sv.satisfies(keys[j], range) ==> !sv.leq(r.value, keys[j]))
    decreases |keys|
  {
    if |keys| > 0 {
      var n := |keys| - 1;
      var prefix := keys[..n];
      assert forall j :: 0 <= j < n ==> prefix[j] == keys[j];
      MaxSatisfyingKeepsEarliest(prefix, range, sv);
      MaxSatisfyingIsGreatest(prefix, range, sv);
      var best := MaxSatisfying(prefix, range, sv);
      var r := MaxSatisfying(keys, range, sv);
      if r.Some? && r != best {
        assert r.value == keys[n];
        forall j | 0 <= j < n && sv.satisfies(keys[j], range)
          ensures !sv.leq(r.value, keys[j])
        {
          assert sv.leq(keys[j], best.value);
        }
      }
    }
  }

  /** Under a total order the walk finds exactly the reference maximum. */
  lemma MaxSatisfyingIsUnique(keys: seq<string>, range: string, sv: Semver, v: string)
    requires TotalOrder(sv.leq)
    ensures MaxSatisfying(keys, range, sv) == Some(v) <==> IsMaxSatisfying(keys, range, sv, v)
  {
    MaxSatisfyingIsGreatest(keys, range, sv);
    var r := MaxSatisfying(keys, range, sv);
    if IsMaxSatisfying(keys, range, sv, v) {
      var i :| 0 <= i < |keys| && keys[i] == v;
      assert r.Some?;
      var j :| 0 <= j < |keys| && keys[j] == r.value;
      assert sv.leq(keys[i], keys[j]) && sv.leq(keys[j], keys[i]);
    }
  }

  /** `packageDoc['dist-tags'] || {}`. */
  function Tags(doc: Document): (r: map<string, string>)
    ensures doc.distTags.None? ==> r == map[]
    ensures doc.distTags.Some? ==> r == doc.distTags.value
  {
    doc.distTags.GetOr(map[])
  }

  /** `packageDoc.versions[version]`: a `TypeError` without a `versions`
      object, otherwise the record if the key is present. */
  function LookupVersion(versions: Option<VersionTable>, version: string): (r: Result<Option<Manifest>, FetchError>)
    ensures r.Failure? <==> versions.None?
    ensures r.Failure? ==> r.error == TypeError
    ensures r.Success? ==> (r.value.Some? <==> version in versions.value.records)
    ensures r.Success? && r.value.Some? ==> r.value.value == versions.value.records[version]
  {
    match versions
    case None => Failure(TypeError)
    case Some(t) => Success(if version in t.records then Some(t.records[version]) else None)
  }

  /** `pickPackage(range, doc)` with "no version satisfies the range" giving no
      record. A tag wins over a range; a non-tag must be a valid range; the
      record of the highest satisfying key is returned. */
  function Pick(range: string, doc: Document, sv: Semver): (r: Result<Option<Manifest>, FetchError>)
    ensures r == Failure(InvalidRange(range)) <==> range !in Tags(doc) && !sv.validRange(range)
    ensures r.Failure? <==> doc.versions.None? || (range !in Tags(doc) && !sv.validRange(range))
    ensures r.Success? && r.value.Some? ==> r.value.value in doc.versions.value.records.Values
  {
    var tags := Tags(doc);
    if range in tags then LookupVersion(doc.versions, tags[range])
    else if !sv.validRange(range) then Failure(InvalidRange(range))
    else
      match doc.versions
      case None => Failure(TypeError)
      case Some(t) =>
        match MaxSatisfying(t.keys, range, sv)
        case None => Success(None)
        case Some(v) => LookupVersion(doc.versions, v)
  }

  /** `pickPackage` as written: when nothing satisfies the range,
      `maxSatisfying` returns `null` and `versions[null]` reads the property
      named "null". */
  function PickAsWritten(range: string, doc: Document, sv: Semver): (r: Result<Option<Manifest>, FetchError>)
    ensures r.Failure? <==> doc.versions.None? || (range !in Tags(doc) && !sv.validRange(range))
  {
    var tags := Tags(doc);
    if range in tags then LookupVersion(doc.versions, tags[range])
    else if !sv.validRange(range) then Failure(InvalidRange(range))
    else
      match doc.versions
      case None => Failure(TypeError)
      case Some(t) =>
        match MaxSatisfying(t.keys, range, sv)
        case None => LookupVersion(doc.versions, "null")
        case Some(v) => LookupVersion(doc.versions, v)
  }

  /** A dist-tag is looked up directly: range validity and satisfaction are
      never consulted, so any semver gives the same answer. */
  lemma PickTagPrecedence(range: string, doc: Document, sv: Semver, other: Semver)
    requires range in Tags(doc)
    ensures Pick(range, doc, sv) == Pick(range, doc, other)
    ensures doc.versions.Some? && Tags(doc)[range] in doc.versions.value.records ==>
      Pick(range, doc, sv) == Success(Some(doc.versions.value.records[Tags(doc)[range]]))
  {
  }

  /** An invalid non-tag range fails before any version lookup: the result
      does not depend on the `versions` object. */
  lemma PickInvalidRangeSkipsLookup(range: string, doc: Document, sv: Semver, versions: Option<VersionTable>)
    requires range !in Tags(doc) && !sv.validRange(range)
    ensures Pick(range, doc, sv) == Pick(range, doc.(versions := versions), sv) == Failure(InvalidRange(range))
  {
  }

  /** For a valid non-tag range the record is that of the highest satisfying
      key; when no key satisfies the range there is no record, and no error. */
  lemma PickHighest(range: string, doc: Document, sv: Semver)
    requires TotalPreorder(sv.leq)
    requires range !in Tags(doc) && sv.validRange(range)
    requires doc.versions.Some? && doc.versions.value.Valid()
    ensures var t := doc.versions.value;
      var r := Pick(range, doc, sv);
      r.Success? &&
      (r.value.None? <==> forall i :: 0 <= i < |t.keys| ==> !sv.satisfies(t.keys[i], range)) &&
      (r.value.Some? ==> exists v :: IsMaxSatisfying(t.keys, range, sv, v) && r.value.value == t.records[v])
  {
    MaxSatisfyingIsGreatest(doc.versions.value.keys, range, sv);
  }

  /** The code as written returns the record stored under "null" when no key
      satisfies the range. */
  lemma PickAsWrittenNullKey()
    ensures var rec := Manifest(Some(Dist("t", "s")));
      var doc := Document(None, Some(VersionTable(["null"], map["null" := rec])));
      var sv := Semver(_ => true, (_, _) => false, (a, b) => true);
      (forall i :: 0 <= i < |doc.versions.value.keys| ==> !sv.satisfies(doc.versions.value.keys[i], "^1.0.0")) &&
      PickAsWritten("^1.0.0", doc, sv) == Success(Some(rec)) &&
      Pick("^1.0.0", doc, sv) == Success(None)
  {
  }

  /** Both definitions agree unless nothing satisfies a valid non-tag range
      and the table has a "null" key. */
  lemma PickAsWrittenAgrees(range: string, doc: Document, sv: Semver)
    requires doc.versions.Some? ==> "null" !in doc.versions.value.records
    ensures PickAsWritten(range, doc, sv) == Pick(range, doc, sv)
  {
  }
}

=== FILE: streams.dfy ===
/** `writeStreamToFile` (fetch.js lines 70-81): piping a readable stream into a
    file, re-expressed as a sequence of stream events of which the first
    non-data event settles the promise. */
module Streams {
  import opened Errors

  type Bytes = seq<bv8>

  /** What the piped streams report, in order. `Data` is a chunk written to
      the file; every other event fires a handler. */
  datatype StreamEvent =
    | Data(chunk: Bytes)
    | SourceError(cause: string)    // 'error' on the source
    | Abort                         // 'aborted' on the source
    | SinkOpenError(cause: string)  // 'error' on the file stream: the file could not be opened
    | SinkError(cause: string)      // 'error' on the file stream once open
    | Finish                        // 'finish' on the file stream

  /** The state of the promise after all the events. */
  datatype Settled = Resolved | Rejected(error: FetchError) | Pending

  /** Event `i` is the first one that is not data. */
  ghost predicate SettlesAt(events: seq<StreamEvent>, i: int)
  {
    0 <= i < |events| && !events[i].Data? &&
    forall j :: 0 <= j < i ==> events[j].Data?
  }

  /** The handler of one non-data event. */
  function Handle(e: StreamEvent, filename: string): (s: Settled)
    requires !e.Data?
    ensures s != Pending
    ensures s.Resolved? <==> e.Finish?
    ensures s.Rejected? && s.error.SourceAborted? <==> e.Abort?
    ensures e.SourceError? || e.SinkOpenError? || e.SinkError? ==> s == Rejected(IoError(e.cause))
    ensures e.Abort? ==> s == Rejected(SourceAborted(filename))
  {
    match e
    case SourceError(cause) => Rejected(IoError(cause))
    case Abort => Rejected(SourceAborted(filename))
    case SinkOpenError(cause) => Rejected(IoError(cause))
    case SinkError(cause) => Rejected(IoError(cause))
    case Finish => Resolved
  }

  /** The promise settles with the handler of the first non-data event and
      stays pending if there is none. */
  function WriteStreamToFile(events: seq<StreamEvent>, filename: string): (s: Settled)
    ensures s.Pending? <==> forall i :: 0 <= i < |events| ==> events[i].Data?
    ensures forall i :: SettlesAt(events, i) ==> s == Handle(events[i], filename)
    decreases |events|
  {
    if |events| == 0 then Pending
    else if events[0].Data? then
      var s := WriteStreamToFile(events[1..], filename);
      assert forall i :: SettlesAt(events, i) ==> i > 0 && SettlesAt(events[1..], i - 1);
      s
    else Handle(events[0], filename)
  }

  /** All the data the events carry, in order. */
  function Chunks(events: seq<StreamEvent>): Bytes
    decreases |events|
  {
    if |events| == 0 then []
    else (if events[0].Data? then events[0].chunk else []) + Chunks(events[1..])
  }

  /** The bytes that reach the file before the promise settles. */
  function Written(events: seq<StreamEvent>): (b: Bytes)
    ensures (forall i :: 0 <= i < |events| ==> events[i].Data?) ==> b == Chunks(events)
    ensures forall i :: SettlesAt(events, i) ==> b == Chunks(events[..i])
    decreases |events|
  {
    if |events| == 0 then []
    else if events[0].Data? then
      var rest := Written(events[1..]);
      assert forall i :: SettlesAt(events, i) ==>
        i > 0 && SettlesAt(events[1..], i - 1) && events[..i][1..] == events[1..][..i - 1];
      events[0].chunk + rest
    else
      assert events[..0] == [];
      []
  }

  /** The file stream reports that it could not open the file at event `i`,
      and nothing before shows that it had opened: no 'finish' and no write
      error. An earlier source error or abort settles the promise but does not
      open the file. */
  ghost predicate OpenFailsAt(events: seq<StreamEvent>, i: int)
  {
    0 <= i < |events| && events[i].SinkOpenError? &&
    forall j :: 0 <= j < i ==> !events[j].Finish? && !events[j].SinkError?
  }

  /** Whether the file stream opened, creating or truncating the file. */
  function Opened(events: seq<StreamEvent>): bool
    decreases |events|
  {
    if |events| == 0 then true
    else if events[0].Finish? || events[0].SinkError? then true
    else if events[0].SinkOpenError? then false
    else Opened(events[1..])
  }

  /** The file stream fails to open exactly when an open error arrives before
      any 'finish' or write error. */
  lemma {:induction false} OpenedExactly(events: seq<StreamEvent>)
    ensures !Opened(events) <==> exists i :: OpenFailsAt(events, i)
    decreases |events|
  {
    if |events| == 0 {
    } else if events[0].Finish? || events[0].SinkError? {
      assert forall i :: OpenFailsAt(events, i) ==> i == 0;
    } else if events[0].SinkOpenError? {
      assert OpenFailsAt(events, 0);
    } else {
      OpenedExactly(events[1..]);
      assert forall i :: OpenFailsAt(events, i) ==> i > 0 && OpenFailsAt(events[1..], i - 1);
      assert forall i :: OpenFailsAt(events[1..], i) ==> events[i + 1] == events[1..][i] && OpenFailsAt(events, i + 1);
    }
  }

  /** A write that settled on 'finish' or on a write error had opened its
      file. */
  lemma {:induction false} SettledOpened(events: seq<StreamEvent>, i: int)
    requires SettlesAt(events, i) && (events[i].Finish? || events[i].SinkError?)
    ensures Opened(events)
    decreases i
  {
    if i > 0 {
      assert SettlesAt(events[1..], i - 1);
      SettledOpened(events[1..], i - 1);
    }
  }

  /** A write that finished had opened its file. */
  lemma ResolvedOpened(events: seq<StreamEvent>, filename: string)
    requires WriteStreamToFile(events, filename).Resolved?
    ensures Opened(events)
  {
    var k :| 0 <= k < |events| && !events[k].Data?;
    FirstSettling(events, k);
    var i :| SettlesAt(events, i);
    SettledOpened(events, i);
  }

  /** A file that could not be opened means a rejected write: the open error,
      or a source error or abort before it, settles the promise. */
  lemma NotOpenedRejects(events: seq<StreamEvent>, filename: string)
    requires !Opened(events)
    ensures WriteStreamToFile(events, filename).Rejected?
  {
    OpenedExactly(events);
    var i :| OpenFailsAt(events, i);
    FirstSettling(events, i);
    var k :| SettlesAt(events, k);
    assert k <= i;
  }

  /** A write error rejects with its cause, after the file had opened and
      received every chunk before the error. */
  lemma SinkErrorSettles(events: seq<StreamEvent>, i: int, filename: string)
    requires SettlesAt(events, i) && events[i].SinkError?
    ensures WriteStreamToFile(events, filename) == Rejected(IoError(events[i].cause))
    ensures Opened(events) && Written(events) == Chunks(events[..i])
  {
    SettledOpened(events, i);
  }

  /** The files `fs` after writing `events` to `path`: the file holds what
      was written before the promise settled, unless it could not be opened,
      in which case nothing changes. */
  function Store(fs: map<string, Bytes>, path: string, events: seq<StreamEvent>): (r: map<string, Bytes>)
    ensures forall p :: p != path ==> (p in r <==> p in fs) && (p in r ==> r[p] == fs[p])
    ensures Opened(events) ==> path in r && r[path] == Written(events)
    ensures !Opened(events) ==> r == fs
  {
    if Opened(events) then fs[path := Written(events)] else fs
  }

  /** Three disjoint outcomes once settled: success, a passed-on error, or the
      abort error naming the target file. */
  lemma SettledOutcomes(events: seq<StreamEvent>, filename: string)
    requires !WriteStreamToFile(events, filename).Pending?
    ensures var s := WriteStreamToFile(events, filename);
      s.Resolved? ||
      (s.Rejected? && s.error.IoError?) ||
      s == Rejected(SourceAborted(filename))
  {
    var i :| 0 <= i < |events| && !events[i].Data?;
    FirstSettling(events, i);
  }

  /** Some event settles the promise as soon as any event is not data. */
  lemma {:induction false} FirstSettling(events: seq<StreamEvent>, k: int)
    requires 0 <= k < |events| && !events[k].Data?
    ensures exists i :: SettlesAt(events, i)
    decreases k
  {
    if forall j :: 0 <= j < k ==> events[j].Data? {
      assert SettlesAt(events, k);
    } else {
      var j :| 0 <= j < k && !events[j].Data?;
      FirstSettling(events, j);
    }
  }
}

=== FILE: strings.dfy ===
/** The two JavaScript string operations the fetcher relies on:
    `String.prototype.split` with a one-character separator and
    `Array.prototype.join` with that separator. */
module Strings {

  /** `s.split(sep)`: the maximal runs of `s` between separators, in order.
      There is always at least one part; `"".split(sep)` is `[""]`. */
  function Split(s: string, sep: char): (parts: seq<string>)
    ensures |parts| >= 1
    ensures forall i :: 0 <= i < |parts| ==> sep !in parts[i]
    ensures |parts| == 1 <==> sep !in s
    decreases |s|
  {
    if |s| == 0 then [""]
    else
      var rest := Split(s[1..], sep);
      if s[0] == sep then [""] + rest
      else [[s[0]] + rest[0]] + rest[1..]
  }

  /** `parts.join(sep)` for a non-empty array of strings. */
  function Join(parts: seq<string>, sep: char): string
    requires |parts| >= 1
    decreases |parts|
  {
    if |parts| == 1 then parts[0]
    else parts[0] + [sep] + Join(parts[1..], sep)
  }

  /** Joining two strings puts one separator between them. */
  lemma JoinTwo(a: string, b: string, sep: char)
    ensures Join([a, b], sep) == a + [sep] + b
  {
    assert [a, b][1..] == [b];
    assert Join([b], sep) == b;
  }

  /** The last part of a split: `s.split(sep).pop()`. */
  function LastPart(s: string, sep: char): string
  {
    var parts := Split(s, sep);
    parts[|parts| - 1]
  }

  /** `t` occurs in `s` starting at index `i`. */
  predicate OccursAt(s: string, t: string, i: nat)
  {
    i + |t| <= |s| && s[i..i + |t|] == t
  }

  /** `t` occurs somewhere inside `s`. */
  ghost predicate Contains(s: string, t: string)
  {
    exists i: nat :: OccursAt(s, t, i)
  }

  /** Joining the parts of a split gives back the original string. */
  lemma {:induction false} JoinSplit(s: string, sep: char)
    ensures Join(Split(s, sep), sep) == s
    decreases |s|
  {
    if |s| > 0 {
      var rest := Split(s[1..], sep);
      JoinSplit(s[1..], sep);
      if s[0] != sep {
        JoinConsChar(s[0], rest, sep);
        assert s == [s[0]] + s[1..];
      }
    }
  }

  /** Prepending a character to the first part prepends it to the join. */
  lemma JoinConsChar(c: char, parts: seq<string>, sep: char)
    requires |parts| >= 1
    ensures Join([[c] + parts[0]] + parts[1..], sep) == [c] + Join(parts, sep)
  {
    var q := [[c] + parts[0]] + parts[1..];
    assert q[1..] == parts[1..];
  }

  /** Splitting a string made of `a`, a separator and `b` splits `a` and `b`
      independently. */
  lemma {:induction false} SplitAround(a: string, b: string, sep: char)
    ensures Split(a + [sep] + b, sep) == Split(a, sep) + Split(b, sep)
    decreases |a|
  {
    var s := a + [sep] + b;
    if |a| == 0 {
      assert s == [sep] + b;
      assert s[1..] == b;
    } else {
      var s1 := a[1..] + [sep] + b;
      assert s[0] == a[0] && s[1..] == s1;
      SplitAround(a[1..], b, sep);
      var ra, rb := Split(a[1..], sep), Split(b, sep);
      if a[0] == sep {
        assert Split(s, sep) == [""] + (ra + rb);
        assert Split(a, sep) == [""] + ra;
      } else {
        assert Split(s, sep) == [[a[0]] + (ra + rb)[0]] + (ra + rb)[1..];
        assert Split(a, sep) == [[a[0]] + ra[0]] + ra[1..];
        ExtendFirst(a[0], ra, rb);
      }
    }
  }

  /** Extending the first part of `ra` commutes with appending `rb`. */
  lemma ExtendFirst(c: char, ra: seq<string>, rb: seq<string>)
    requires |ra| >= 1
    ensures [[c] + (ra + rb)[0]] + (ra + rb)[1..] == ([[c] + ra[0]] + ra[1..]) + rb
  {
    assert (ra + rb)[0] == ra[0];
    assert (ra + rb)[1..] == ra[1..] + rb;
  }

  /** A string without separators splits into itself alone. */
  lemma {:induction false} SplitNoSep(s: string, sep: char)
    requires sep !in s
    ensures Split(s, sep) == [s]
    decreases |s|
  {
    if |s| > 0 {
      assert sep !in s[1..];
      SplitNoSep(s[1..], sep);
      assert s == [s[0]] + s[1..];
    }
  }

  /** The first part is the text before the first separator (all of `s` when
      there is none). */
  lemma {:induction false} SplitFirstPart(s: string, sep: char)
    ensures var first := Split(s, sep)[0];
      |first| <= |s| && s[..|first|] == first &&
      (|first| < |s| ==> s[|first|] == sep)
    decreases |s|
  {
    if |s| > 0 && s[0] != sep {
      SplitFirstPart(s[1..], sep);
    }
  }

  /** The last part is the text after the last separator (all of `s` when
      there is none). */
  lemma {:induction false} SplitLastPart(s: string, sep: char)
    ensures var last := LastPart(s, sep);
      |last| <= |s| && s[|s| - |last|..] == last &&
      (|last| < |s| ==> s[|s| - |last| - 1] == sep)
    decreases |s|
  {
    if |s| > 0 {
      var rest := Split(s[1..], sep);
      SplitLastPart(s[1..], sep);
      if s[0] != sep && |rest| == 1 {
        assert LastPart(s, sep) == [s[0]] + rest[0];
        assert rest[0] == s[1..];
      }
    }
  }

  /** The parts after the first are the split of the text after the first separator. */
  lemma {:induction false} SplitAfterFirst(s: string, sep: char)
    requires sep in s
    ensures var first := Split(s, sep)[0];
      |first| < |s| && Split(s, sep)[1..] == Split(s[|first| + 1..], sep)
  {
    var parts := Split(s, sep);
    var first := parts[0];
    SplitFirstPart(s, sep);
    assert sep !in first;
    assert s[..|s|] == s;
    assert |first| < |s|;
    var rest := s[|first| + 1..];
    assert s == s[..|first|] + [s[|first|]] + rest;
    assert s == first + [sep] + rest;
    SplitAround(first, rest, sep);
    SplitNoSep(first, sep);
  }

  /** Splitting undoes joining when no part contains the separator. */
  lemma {:induction false} SplitJoin(parts: seq<string>, sep: char)
    requires |parts| >= 1
    requires forall i :: 0 <= i < |parts| ==> sep !in parts[i]
    ensures Split(Join(parts, sep), sep) == parts
    decreases |parts|
  {
    if |parts| == 1 {
      SplitNoSep(parts[0], sep);
    } else {
      SplitJoin(parts[1..], sep);
      SplitAround(parts[0], Join(parts[1..], sep), sep);
      SplitNoSep(parts[0], sep);
      assert parts == [parts[0]] + parts[1..];
    }
  }

  /** The last part of `prefix + [sep] + tail` is `tail` when `tail` holds no separator. */
  lemma LastPartAfterSep(prefix: string, tail: string, sep: char)
    requires sep !in tail
    ensures LastPart(prefix + [sep] + tail, sep) == tail
  {
    SplitAround(prefix, tail, sep);
    SplitNoSep(tail, sep);
  }
}

=== FILE: wrappers.dfy ===
/** Option and Result types for the model: `Option` stands for a JavaScript value
    that may be `undefined`, `Result` for a promise or call that either yields a
    value or throws / rejects with an error. */
module Wrappers {

  datatype Option<+T> = None | Some(value: T) {

    /** The value, or `default` when there is none (JavaScript's `x || default`
        for a value that is either a proper object or missing). */
    function GetOr(default: T): (r: T)
      ensures Some? ==> r == value
      ensures None? ==> r == default
    {
      match this
      case Some(v) => v
      case None => default
    }
  }

  datatype Result<+R, +E> = Success(value: R) | Failure(error: E)
}
